=== FILE: README.md ===
# WanderWhirl booking and listing core in Dafny

This project models the decision logic of the WanderWhirl rental site.
That site is an Express and Mongoose application where users publish listings, review them and book stays. The model covers:

- **The booking engine** (`Bookings`). `createBooking` is a pure step function over a store of listing states (price, `isBooked` flag, booking ids) and a sequence of bookings. A booking's id is its position in that sequence. The step checks, in order, for a missing listing, a listing already booked, and a half-open date overlap with any stored booking of the listing. Only then does it price the stay (`ceil(Δms / 86400000) × price × guests`), append the booking and close the listing. The older route `POST /listings/:id/bookings` is modelled beside it and skips both checks.
- **Booking lookups** (`BookingQueries`): `showBooking`, `downloadInvoice`, and the "my bookings" query (the user's bookings, latest check-in first).
- **Validators** (`Schema`): `listingSchema`, `reviewSchema` and `userSchema` as predicates plus the ordered list of their violations. The password pattern is checked by a loop.
- **Listings** (`Listings`): the listing document, `createListing`, `updateListing` (as written and as intended), `destroyListing`, the category filter and the empty-query guard of the search.
- **Reviews** (`Reviews`): `createReview` appends a reference, and `destroyReview` pulls every occurrence of it out again (MongoDB's `$pull`).
- **Middleware** (`Middleware`): every request guard as a function returning a `Gate`. A `Gate` either lets the request through (`Next`), answers it with a flash and a redirect (`Deny`), throws an HTTP error (`Throw`), or rejects with an error nothing catches (`Fault`): a `TypeError` on a missing value, or a cast error on a malformed id.
- **Accounts** (`Users`): signup over a registry of `(username, email)` accounts, and the login redirect.
- **Maintenance scripts** (`Migrate`, `Cleanup`): the category migration, and the removal of dangling review references.
- **Routes** (`Routes`): the guard order of each route in routes/bookings.js and routes/listing.js and of the review routes.

Inputs the application gets from outside become parameters:

- the geocoding answer (`Geocode`);
- an uploaded file (`Upload`);
- Joi's e-mail check (`isEmail`);
- Joi's own message text (`render`);
- whether the request is authenticated.

Every id that a handler or guard hands to `findById` or `findByIdAndUpdate` is an `IdParam`: `Malformed`, or a well-formed id. That covers the `:id` of the listing and review routes, the `:id` of the booking routes, the review id, and the listing id of the booking form, which may also be missing. The one exception is the listing id of the review deletion route, which stays a plain id (see "Left out"). Dates are whole milliseconds, prices and guest counts are integers, and ratings are reals.

The model follows the code where it departs from what a booking site would be expected to do:

- `createBooking` accepts `checkOut <= checkIn` and any guest count. Such a stay costs `price × nights × guests` with `nights <= 0` (`Bookings.EmptyStayIsBooked`).
- Bookings have no status, and the conflict query does not filter on one.
- A successful booking sets `isBooked`, which turns away every later request for that listing. Two back-to-back stays therefore cannot both be booked, even though they do not overlap (`Bookings.BookedListingRejectsLaterRequests`).
- `isBooked` and `bookings` are used by the controller but not declared in models/listing.js. Under that schema as shown, `listing.isBooked` always reads as undefined, and `listing.bookings.push` throws after the booking has been saved, so the listing is never marked. The booking engine instead keeps both fields in its own `ListingState`, apart from the `Listing` document. That state is an assumption of the model: it describes a listing schema that declares the two fields, as the controller expects.
- As written, the application does not start. routes/user.js:22 hands `router.get` the handler `userController.logout`, which controllers/users.js does not define, and Express refuses a route without a handler when app.js:24 loads that router.
- With that line repaired, the signup and login routes (routes/user.js:12 and routes/user.js:18) still wrap the undefined `signup` and `login`, so `signupUser` and `loginUser` never run; and the bookings router is not mounted (app.js:96-98), so of the two booking paths only the older `POST /listings/:id/bookings` would serve requests.
- The model still wires every router and handler as it is written, and models the handlers under their exported names.
- On `POST /bookings` the path has no `:id`, so `checkListingAvailability` looks up an absent id and always lets the request through. This changes nothing: given the listing's id, it would turn away exactly the requests `createBooking` refuses first, with the same message and redirect (`Routes.AvailabilityGuardAddsNothing`).

## Model

| member | source | states |
|---|---|---|
| Bookings.CeilDiv | controllers/bookings.js:36 | for a positive divisor the result `q` is the least whole number with `a <= d*q` (`Math.ceil` of the quotient) |
| Bookings.Nights | controllers/bookings.js:36 | the number of nights `n` satisfies `86400000*(n-1) < checkOut-checkIn <= 86400000*n` |
| Bookings.WholeDaysAreNights | controllers/bookings.js:36 | a stay of exactly `days` whole days is `days` nights |
| Bookings.NightsPositiveIffForward | controllers/bookings.js:36 | there is at least one night exactly when check-out is after check-in; a reversed or empty stay gets no positive night count |
| Bookings.ForwardStayCostsAtLeastOneNight | controllers/bookings.js:36-37 | for a forward stay with a non-negative price and at least one guest, the total is at least one night's price for every guest |
| Bookings.ThreeNightsForTwoExample | controllers/bookings.js:36-37 | 2024-01-01 to 2024-01-04 is 3 nights, and for 2 guests at 100 it costs 600 |
| Bookings.OverlapSymmetric | controllers/bookings.js:24-29 | the half-open overlap relation between two stays is symmetric |
| Bookings.AdjacentStaysDoNotConflict | controllers/bookings.js:24-29 | a stay that starts when another ends does not conflict with it |
| Bookings.FindConflict | controllers/bookings.js:24-29 | returns the first stored booking of the listing that overlaps the request, or nothing exactly when none does |
| Bookings.CreateBooking | controllers/bookings.js:8-57 | the store is unchanged on each of the three refusals (missing listing, already booked, date conflict), each with its message and redirect. On success exactly one booking is appended with the request's fields and `price × nights × guests`, the listing is marked booked and gets the new id at the end of its ids, and no other listing changes. The store changes iff the request is admissible |
| Bookings.CreateBookingPreservesNoOverlap | controllers/bookings.js:18-53 | if no two stored bookings of a listing overlap before, none do after |
| Bookings.CreateBookingPreservesRefs | controllers/bookings.js:51-52 | every booking id a listing holds names a stored booking of that listing, before and after |
| Bookings.BookedListingRejectsLaterRequests | controllers/bookings.js:18-51 | after one success every later request for the same listing is refused as already booked, and the store is unchanged |
| Bookings.EmptyStayIsBooked | controllers/bookings.js:8-57 | a stay ending where it starts is booked for no nights at price 0, and it closes the listing to the adjacent stay |
| Bookings.ReplayPreservesNoOverlap | controllers/bookings.js:18-53 | no-overlap holds after any sequence of booking requests |
| Bookings.BookedListingStaysClosed | controllers/bookings.js:18-51 | once booked, a listing stays booked and takes no further booking for the rest of any request sequence |
| Bookings.SubmitBooking | controllers/bookings.js:9-16 | a form without a listing id is answered "Listing not found", because `findById(undefined)` finds nothing; a malformed id ends on the error page; both leave the store unchanged. A well-formed id goes through `createBooking`'s checks, and the store changes iff that request is admissible |
| Bookings.SubmitBookingPreservesNoOverlap | controllers/bookings.js:9-57 | no submitted form, with a missing or malformed id included, makes two bookings of a listing overlap |
| Bookings.LegacyCreateBooking | routes/listing.js:38-65 | a missing listing ends on the error page with the store unchanged. Otherwise one booking is appended with the request's listing, dates and guest count, the user, and the same price formula, and the listings are left untouched |
| Bookings.SubmitLegacyBooking | routes/listing.js:42-63 | the listing comes from the route's `:id` and the stay from the form's `booking` object. A malformed id, or a form without that object, ends on the error page with the store unchanged, like a missing listing; the store changes iff the id is well formed, the object is present and the id names a listing |
| Bookings.LegacyStoresSameBooking | routes/listing.js:46-58 | on a request the controller accepts, the older route stores the same booking under the same id with the same reply, but leaves the listing's flag and ids alone |
| Bookings.LegacyPreservesRefs | routes/listing.js:38-65 | the older route keeps listing-to-booking references valid |
| Bookings.LegacyBreaksNoOverlap | routes/listing.js:42-58 | a concrete store where the older route books the same night twice, while `createBooking` refuses that request and leaves the store as it was |
| BookingQueries.ShowBooking | controllers/bookings.js:66-90 | refuses a malformed id, then a missing booking, then another user's booking, each with its message and redirect to my-bookings; shows the booking iff it exists and belongs to the requester |
| BookingQueries.DownloadInvoice | controllers/bookings.js:91-113 | a malformed id reaches the lookup and ends on the error page; missing and foreign bookings are refused with their messages and redirect to /listings; delivers iff the booking is the requester's |
| BookingQueries.InvoiceFollowsPageAccess | controllers/bookings.js:84-105 | for a well-formed id the invoice is delivered exactly when the booking page would be shown, and it holds the same booking |
| BookingQueries.InsertDesc | routes/bookings.js:15 | inserting into a list sorted by check-in, latest first, keeps it sorted and adds exactly the one element |
| BookingQueries.SortByCheckInDesc | routes/bookings.js:15 | the result is sorted by check-in, latest first, and is a permutation of the input |
| BookingQueries.MyBookings | routes/bookings.js:13-15 | the result is sorted latest check-in first, holds each of the user's stored bookings as often as it is stored, and holds nothing else |
| Schema.CategoriesAreElevenDistinctLabels | schema.js:14-28 | the category enum has eleven labels, no two alike, and the document default "Trending" is one of them |
| Schema.TextViolations | schema.js:5-8 | a required Joi string reports nothing exactly when it is present and non-empty, else one violation on its own path |
| Schema.ListingViolations | schema.js:3-30 | no violation iff the body is present, its four texts are non-empty, its price is at least 0 and its category is one of the eleven; a missing body is the single required `listing` key; the first violation, the one reported, belongs to the first key in schema order (title, description, location, country, price, category) that breaks its rule |
| Schema.ReviewViolations | schema.js:32-37 | no violation iff a comment is present and the rating lies in [1, 5]. The first violation, the one reported, is the required `review` object for a missing body, else the comment's (required or empty), else the rating's single violation: required, below the minimum or above the maximum |
| Schema.FractionalRatingAccepted | schema.js:35 | a rating of 4.5 is accepted: ratings need not be whole |
| Schema.ScanPassword | schema.js:49-52 | the scan answers true iff the password has a lower-case letter, an upper-case letter and a digit, and no line terminator |
| Schema.Utf16LengthIsLengthIffBasic | schema.js:40-51 | the length Joi compares equals the number of characters iff no character lies beyond U+FFFF |
| Schema.SignupMessages | schema.js:39-58 | no message iff the username is 3 to 30 UTF-16 units long, the e-mail is present and well formed, and the password is at least 8 units long and matches the pattern; each broken rule contributes its message: the three custom "required" texts, the custom length, e-mail and pattern texts, and Joi's "is not allowed to be empty" for an empty field |
| Schema.RequiredOnlyWhenMissing | schema.js:39-58 | a "required" message appears only when its field is missing: no other rule shares its text |
| Schema.UsernameMessageOnlyWhenBroken | schema.js:40-44 | the username's length messages and its empty-field message appear only when the username breaks that rule |
| Schema.EmailMessageOnlyWhenBroken | schema.js:45-48 | the invalid-address message and the e-mail's empty-field message appear only when the e-mail breaks that rule |
| Schema.PasswordMessageOnlyWhenBroken | schema.js:49-57 | the password's length and pattern messages and its empty-field message appear only when the password breaks that rule |
| Schema.EmojiCountsTwice | schema.js:39-58 | a seven-character password holding an emoji is eight units long and accepted, and so is a two-character username holding one |
| Schema.PasswordExamples | schema.js:52 | "Passw0rd" matches; "password1" (no capital) and a strong password with a line break do not |
| Listings.CategoryOrDefault | models/listing.js:46-62 | a new document keeps a given category, and otherwise gets the default "Trending", which is one of the labels |
| Listings.UploadedImage | controllers/listings.js:63-64 | without an upload the image is the placeholder URL and name; each part of an upload is used when it is non-empty, and replaced by its placeholder when it is empty |
| Listings.WithDefaults | models/listing.js:46-62 | a loaded listing without a category reads as "Trending"; every other field, and a category that is there, is as stored |
| Listings.CreateListing | controllers/listings.js:29-92 | each failure has its status and message: missing body, missing field, geocoding error, no features. The listing is saved iff the body has its five fields, geocoding found a feature and any category given is allowed. The saved listing is owned by the current user, has no reviews, carries the form's fields, the first feature's geometry and the category or its default |
| Listings.NoUploadGetsPlaceholder | controllers/listings.js:63-64 | a valid form without an upload is saved with the placeholder image |
| Listings.UpdateListing | controllers/listings.js:105-143 | a missing listing is a 404. Only the image (when a file is given) and the geometry (when location and country are both truthy) change, on the document as loaded, which carries the default category. No features is a 400. A loaded document the schema refuses is never saved: the save rejects, after the geocoding |
| Listings.Save | controllers/listings.js:136 | `listing.save()` writes the document iff the schema accepts it, and then writes it unchanged |
| Listings.UpdateWritesDefaultCategory | controllers/listings.js:105-143 | an update of a listing stored without a category saves it as "Trending"; one whose stored title is empty fails |
| Listings.UpdateDropsEditedFields | controllers/listings.js:113 | a valid form that renames and moves a listing the schema accepts is saved with the old title and location, while the geometry follows the new place |
| Listings.UpdateListingIntended | controllers/listings.js:105-143 | the saved listing carries the form's fields, keeps reviews and owner, and takes the new geometry |
| Listings.DestroyListing | controllers/listings.js:145-151 | exactly the given listing is gone and every other listing is as before |
| Listings.FilterByCategory | controllers/listings.js:153-178 | a label outside the eleven is refused with 400 "Invalid category". Otherwise the result holds exactly the listings stored under that label, each as often as it is stored |
| Listings.CategoryFilterIsCaseSensitive | controllers/listings.js:169 | "trending" is refused while "Trending" is accepted |
| Listings.Trim | controllers/listings.js:183 | the trimmed text is the slice of the query that starts at its first non-whitespace character; everything before and after it is whitespace, and it neither starts nor ends with whitespace. It is empty iff the query is all whitespace |
| Listings.SearchListings | controllers/listings.js:180-187 | an absent or all-whitespace query redirects to /listings with an error and searches nothing; otherwise the trimmed query is searched |
| Reviews.Pull | controllers/reviews.js:18 | the id no longer occurs, and every other id occurs as often as before |
| Reviews.PullKeepsOrder | controllers/reviews.js:18 | pulling from a concatenation is pulling from each part, so survivors keep their order |
| Reviews.PullAbsent | controllers/reviews.js:18 | pulling an id that is not referenced changes nothing |
| Reviews.PullIdempotent | controllers/reviews.js:18 | pulling twice is pulling once |
| Reviews.PullUndoesAppend | controllers/reviews.js:8-18 | appending a new id and pulling it restores the list |
| Reviews.CreateReview | controllers/reviews.js:4-14 | a malformed id, a missing listing, or a listing the schema refuses once its defaults are filled in ends on the error page with nothing stored; the store changes exactly in the other cases. Then the review is stored with the current user as author, its id is appended at the end of the listing's references, the listing is saved with its defaults, and nothing else changes |
| Reviews.ReviewSavesDefaultCategory | controllers/reviews.js:4-10 | a review under a listing stored without a category saves the listing as "Trending"; under one with an empty title nothing is stored |
| Reviews.DestroyReview | controllers/reviews.js:16-22 | a malformed listing id ends on the error page before the review is deleted. Otherwise the review is deleted, every occurrence of its id leaves the listing's references and all other references are kept, and no other document changes |
| Reviews.DestroyUndoesCreate | controllers/reviews.js:4-22 | deleting a review just created restores the review documents and the listing's references; the listing keeps only the default category it was saved with, so a listing that had a category is restored exactly |
| Reviews.DestroyReviewAsRouted | controllers/reviews.js:17-18 | reading the absent parameter `reviewID` pulls nothing, so the listings are unchanged |
| Reviews.RoutedDeleteKeepsReference | controllers/reviews.js:17 | through the route the deleted review's id stays in the listing, while the intended handler removes it |
| Middleware.IsLoggedIn | middleware.js:8-14 | passes iff the request is authenticated, else sends to /login with its message |
| Middleware.IsOwner | middleware.js:23-35 | passes iff the id is well formed, the listing exists and its owner is the current user. A missing listing goes to /listings, a foreign one to its page; a malformed id, a missing owner or a missing user is an uncaught rejection |
| Middleware.IsReviewAuthor | middleware.js:55-71 | passes iff the id is well formed, the review exists and the current user is its author; the refusals come in that order, each with its message, all to the listing's page |
| Middleware.ListingExists | middleware.js:73-85 | passes iff the id is well formed and names a listing, else sends to /listings with the matching message |
| Middleware.CheckListingAvailability | middleware.js:87-94 | refuses iff an id is given and names a stored listing that is booked; a missing listing or id passes |
| Middleware.ValidateListing | middleware.js:37-44 | passes iff `listingSchema` accepts the body, else throws 400 with the message of the first violation |
| Middleware.ValidateReview | middleware.js:46-53 | passes iff `reviewSchema` accepts the body, else throws 400 with the message of the first violation |
| Middleware.MissingListingBodyNamesListing | middleware.js:37-44 | a request with no listing body is reported as the missing `listing` key |
| Middleware.SavedRedirectUrl | middleware.js:16-21 | the locals take the session's URL only when it is truthy, and are otherwise left as they were |
| Users.SignupUser | controllers/users.js:9-42 | an invalid form goes back to /signup with every message joined by ", ", and a taken username or e-mail goes back with its message; both leave the registry unchanged. Otherwise exactly the new account is added and the user is welcomed on /listings. The registry changes iff the form is valid and neither name nor e-mail is taken |
| Users.SignupPreservesUniqueness | controllers/users.js:24-31 | if no two accounts share a username or e-mail before a signup, none do after |
| Users.SecondSignupRefused | controllers/users.js:24-28 | repeating a successful signup is refused as existing and changes nothing |
| Users.SignupFlashOpensWithFirstProblem | controllers/users.js:15-20 | with a too-short username the flash text opens with the username's message |
| Users.LoginUser | controllers/users.js:48-52 | welcomes back and redirects to the saved URL when it is truthy, otherwise to /listings |
| Users.LoginReturnsToSavedUrl | controllers/users.js:50-51 | after `savedRedirectUrl` on fresh locals, login returns to the session's saved URL, or to /listings |
| Migrate.Migrated | migrateCategories.js:10-12 | a listing without a category gets "Trending"; one with a category is unchanged |
| Migrate.MigrateCategories | migrateCategories.js:8-22 | up to the first refused save every listing is migrated, and from it on every listing is untouched. The run completes iff no save is refused, and then every listing has a category. A store where every listing has a category is left as it is |
| Migrate.MigratedIsFixedPoint | migrateCategories.js:10-14 | migrating a migrated listing changes nothing, so a second run selects nothing |
| Cleanup.Present | cleanupReviews.js:13 | dropping null entries keeps the length iff there was no null |
| Cleanup.CleanStep | cleanupReviews.js:13-16 | nothing is saved iff no populated entry is null; otherwise the non-null ids are saved, strictly fewer than before |
| Cleanup.DefaultPopulateKeepsDangling | cleanupReviews.js:11-14 | under the default populate the script never finds anything to clean |
| Cleanup.PresentOfRetained | cleanupReviews.js:11-13 | with null entries retained, the surviving ids are exactly the live references in their original order |
| Cleanup.CleanListing | cleanupReviews.js:13-16 | nothing is saved iff every reference is live; otherwise the saved listing keeps each live reference as often as before, drops the rest, and is otherwise the loaded document, default category included |
| Cleanup.CleanListingFollowsScript | cleanupReviews.js:11-16 | this matches the script's own length comparison on the populated references |
| Cleanup.CleanedKeepsExactlyLive | cleanupReviews.js:13 | after the run a listing refers to a review iff it referred to it before and the review exists; an unsaved listing is unchanged, and a saved one differs only in its references and its defaulted category |
| Cleanup.CategorylessListingIsCleaned | cleanupReviews.js:11-16 | a listing stored without a category and referring to a deleted review is not refused: it is saved with no dangling reference and the category "Trending" |
| Cleanup.CleanListingIdempotent | cleanupReviews.js:13-16 | a cleaned listing has nothing left to clean, so a second run saves nothing |
| Cleanup.SaveFailsIffCleanedRefused | cleanupReviews.js:14-16 | the failure condition is the database refusing the cleaned document the script saves, defaults applied |
| Cleanup.CleanupReviews | cleanupReviews.js:9-26 | up to the first refused save every listing loses exactly its dangling references, and from it on nothing changes. The run completes iff no save is refused, and then every reference is live |
| Routes.PostBooking | routes/bookings.js:24-28 | unauthenticated requests go to /login with the store unchanged; authenticated ones get exactly `createBooking` on the submitted form |
| Routes.AvailabilityGuardAddsNothing | routes/bookings.js:24-28 | with no id the guard always passes; given the listing's id, the guard followed by `createBooking` is `createBooking` |
| Routes.PostBookingPreservesNoOverlap | routes/bookings.js:24-28 | the booking route keeps the no-overlap invariant |
| Routes.ShowBookingRoute | routes/bookings.js:31-34 | requires login; shows only the requester's own booking |
| Routes.DownloadRoute | routes/bookings.js:37-40 | requires login; delivers only the requester's own booking |
| Routes.MyBookingsRoute | routes/bookings.js:10-21 | requires login; returns exactly the user's bookings, each as many times as it is stored, latest check-in first |
| Routes.CreateListingRoute | routes/listing.js:13-15 | login first, then validation (400 on a rejected body); a request that passes both gets exactly `createListing`, and the store grows by exactly its saved listing under the new id iff all guards pass and geocoding finds the place |
| Routes.UpdateListingRoute | routes/listing.js:27-29 | login, then ownership (where a malformed id is an uncaught rejection), then validation (400 on a rejected body); a request that passes all three gets exactly `updateListing`, whose saved listing replaces the stored one. The store changes only then, and no listing appears or disappears |
| Routes.DeleteListingRoute | routes/listing.js:30 | the listing is removed iff the requester is signed in, the id is well formed, and the requester owns the listing |
| Routes.OnlyOwnerChangesListing | routes/listing.js:29-30 | a signed-out requester, a malformed id or a non-owner changes no listing by update or delete |
| Routes.LegacyBookingRoute | routes/listing.js:38-40 | requires login only, then the unchecked booking creation on the route's id and the form's `booking` object |
| Routes.OnlyLegacyRouteDoubleBooks | routes/listing.js:38-65 | on the same store and request, the booking route keeps no-overlap while the older route breaks it |
| Routes.PostReviewRoute | routes/reviews.js:11 | login, then validation (400 on a rejected body); a request that passes both gets exactly `createReview`, so anything stored comes from a valid body under a well-formed id of an existing listing the schema accepts, with the user as author |
| Routes.DeleteReviewRoute | routes/reviews.js:14 | login, then authorship: a signed-out request is sent to /login, a signed-in one gets `isReviewAuthor`'s answer, and the handler runs iff the id names a review the user wrote. Even then every listing's references stay as they were |
| Common.JoinLength | middleware.js:40 | the joined text is exactly as long as all the parts together plus one separator between each pair |
| Common.Filter | cleanupReviews.js:13 | the result holds each passing element as often as the input and nothing else |
| Common.FilterAppend | cleanupReviews.js:13 | filtering preserves relative order: filtering a concatenation filters each part |
| Common.FilterKeepsLengthIffAllPass | cleanupReviews.js:14 | the filtered list is as long as the input iff every element passes |

## Left out

- Express, sessions, passport, flash storage and the error page handler are framework plumbing. A guard's answer is modelled as the flash text and the redirect.
- `Fault` (in `isOwner`, a cast error on a malformed id or a `TypeError` on a missing owner or user) stops the model there. What the framework does with the rejected promise is not modelled.
- The geocoding service, file storage, PDF rendering (utils/pdfGenerator.js), e-mail (utils/nodemailerConfig.js) and the browser map (public/js/map.js) are external services. Their answers are parameters, or they are not part of this model.
- Joi's e-mail check and its default message text are library behaviour, modelled as the opaque parameters `isEmail` and `render`. The same holds for `isValidObjectId`, modelled as `IdParam`.
- JavaScript `Date` parsing, `Number()` coercion and floating-point prices are not modelled. Dates are whole milliseconds and prices whole numbers, with no 64-bit limits.
- The regular-expression search (controllers/listings.js:187-196) compiles user text. Only its empty-query guard is modelled.
- Concurrency is not modelled: the check-then-insert race in `createBooking`, and a save that succeeds for the booking but fails for the listing. Every step is atomic.
- The read-only page handlers are not modelled, because they render pages without deciding anything: `index`, `showListing`, `renderEditForm`, `renderNewForm`, `renderSignupForm`, `renderLoginForm`. The same goes for `logoutUser`, whose outcome is passport's, and `localsMiddleware`, which only copies values.
- Users.SignupUser: the `catch` path is not modelled. That path flashes the message of an exception raised during registration, and `req.login` can fail; both are library failures.
- Reviews.DestroyReviewAsRouted: only the listing side is modelled. What `Review.findByIdAndDelete(undefined)` does is database-library behaviour.
- Cleanup.SaveFails, Migrate.SaveFails, Listings.Save, Listings.UpdateListing and Reviews.CreateReview: a refused save is modelled only through title and category, the latter after the schema default is applied to the loaded document. Other schema rules (geometry) are assumed to hold for stored documents.
- Bookings.CreateBooking and Bookings.LegacyCreateBooking: a listing stored without a price is not modelled. models/listing.js allows one, and the total is then `NaN`; what saving such a booking does depends on models/booking.js, which is not part of this model. `ListingState.price` is always a whole number.
- Schema.ListingViolations: only bodies made of the schema's own keys, with the image absent or an object of texts, are represented. Joi also answers a key outside the schema, an image sent as plain text and a price that is not a number with a 400. `ValidListingBody`, `Middleware.ValidateListing` and the review schema say nothing about such bodies.
- Routes.CreateListingRoute: the multer upload step is represented only by the `file` parameter.
- Routes.DeleteReviewRoute: it states the guards' answers and the effect on listings only; the effect on review documents is left out for the reason given for `DestroyReviewAsRouted`. Its listing id is a well-formed id: a malformed `:id` would be sent back by `isReviewAuthor` to a `/listings/<text>` path that `Redirect` cannot hold, and would make the handler's update fail with a cast error.
- The route wiring of routes/user.js names `signup`, `login` and `logout`, which the controller does not export under those names. As written this stops the application at startup, and would keep `signupUser` and `loginUser` from running (see above). The handlers are modelled under their exported names, as if the routes named them. What utils/wrapAsync.js does with an undefined function is not part of this model.
- A listing's deletion does not cascade to its reviews in the code shown, and no cascade is modelled.

## Findings

| source | as written | input that shows it | evidently intended | confidence | as-written member | corrected member |
|---|---|---|---|---|---|---|
| controllers/listings.js:113 | `listing.set({ ...req.body })` sets the single key `listing`, which is not a schema path, so strict mode drops it and no form field is saved | a valid edit form that changes the title | the form's fields (`req.body.listing`) are written to the document | medium, not executed | Listings.UpdateDropsEditedFields | Listings.UpdateListingIntended |
| controllers/reviews.js:17 | the handler reads `req.params.reviewID`, but the route declares `:reviewId` (routes/reviews.js:14), so it pulls `undefined` and the reference stays | deleting review r of listing l through `DELETE /listings/l/reviews/r` | the id in the route is pulled from the listing | high, not executed | Reviews.RoutedDeleteKeepsReference | Reviews.DestroyReview |
| cleanupReviews.js:11-14 | `populate("reviews")` leaves missing documents out of the array by default, so the lengths always agree and nothing is cleaned | a listing referring to a deleted review | populate with null entries retained, or compare against the raw ids | medium, not executed | Cleanup.DefaultPopulateKeepsDangling | Cleanup.CleanupReviews |

=== FILE: booking_queries.dfy ===
/** The read-only booking handlers: `showBooking`, `downloadInvoice` and
    `myBookings` from controllers/bookings.js, the same "my bookings" query
    repeated in routes/bookings.js. */
module BookingQueries {
  import opened Common
  import opened Bookings

  /** What a lookup handler answers: the booking (rendered as a page or as
      an invoice), a refusal with a flash message and a redirect, or the
      error page. */
  datatype ViewReply = Shown(booking: Booking) | Refused(flash: Flash, to: Redirect) | Failed(status: int)

  const MyBookingsPath: string := "/bookings/my-bookings"

  /** `showBooking`: reject a malformed id, then a missing booking, then a
      booking that belongs to someone else; otherwise show it. */
  function ShowBooking(s: Store, id: IdParam, requester: UserId): (r: ViewReply)
    ensures id.Malformed? ==> r == Refused(Error("Invalid booking ID"), ToPath(MyBookingsPath))
    ensures id.Wellformed? && id.id >= |s.bookings| ==>
      r == Refused(Error("Booking not found"), ToPath(MyBookingsPath))
    ensures id.Wellformed? && id.id < |s.bookings| && s.bookings[id.id].user != requester ==>
      r == Refused(Error("You are not authorized to view this booking"), ToPath(MyBookingsPath))
    ensures r.Shown? <==> id.Wellformed? && id.id < |s.bookings| && s.bookings[id.id].user == requester
    ensures r.Shown? ==> r.booking == s.bookings[id.id] && r.booking.user == requester
  {
    match id
    case Malformed => Refused(Error("Invalid booking ID"), ToPath(MyBookingsPath))
    case Wellformed(n) =>
      if n >= |s.bookings| then Refused(Error("Booking not found"), ToPath(MyBookingsPath))
      else if s.bookings[n].user != requester then
        Refused(Error("You are not authorized to view this booking"), ToPath(MyBookingsPath))
      else Shown(s.bookings[n])
  }

  /** `downloadInvoice`: the same owner check, with its own messages and
      redirect, but no id check first, so a malformed id reaches the
      database lookup, whose cast error ends on the error page. */
  function DownloadInvoice(s: Store, id: IdParam, requester: UserId): (r: ViewReply)
    ensures id.Malformed? ==> r == Failed(500)
    ensures id.Wellformed? && id.id >= |s.bookings| ==>
      r == Refused(Error("Booking not found"), ToPath("/listings"))
    ensures id.Wellformed? && id.id < |s.bookings| && s.bookings[id.id].user != requester ==>
      r == Refused(Error("You are not authorized to download this invoice"), ToPath("/listings"))
    ensures r.Shown? <==> id.Wellformed? && id.id < |s.bookings| && s.bookings[id.id].user == requester
    ensures r.Shown? ==> r.booking == s.bookings[id.id] && r.booking.user == requester
  {
    match id
    case Malformed => Failed(500)
    case Wellformed(n) =>
      if n >= |s.bookings| then Refused(Error("Booking not found"), ToPath("/listings"))
      else if s.bookings[n].user != requester then
        Refused(Error("You are not authorized to download this invoice"), ToPath("/listings"))
      else Shown(s.bookings[n])
  }

  /** The invoice and the booking page show the same booking to the same
      people: a download succeeds exactly when the page would be shown. */
  lemma InvoiceFollowsPageAccess(s: Store, n: BookingId, requester: UserId)
    ensures DownloadInvoice(s, Wellformed(n), requester) == ShowBooking(s, Wellformed(n), requester)
            || (!DownloadInvoice(s, Wellformed(n), requester).Shown?
                && !ShowBooking(s, Wellformed(n), requester).Shown?)
  {
  }

  // ---------------------------------------------------------------------
  // My bookings: find by user, sort by check-in descending

  predicate SortedByCheckInDesc(bs: seq<Booking>)
  {
    forall i, j :: 0 <= i < j < |bs| ==> bs[i].checkIn >= bs[j].checkIn
  }

  /** `Booking.find({ user })`: the bookings of one user, in store order. */
  function OwnedBy(bs: seq<Booking>, user: UserId): (r: seq<Booking>)
    ensures forall b :: multiset(r)[b] == if b.user == user then multiset(bs)[b] else 0
  {
    Filter(bs, (b: Booking) => b.user == user)
  }

  function InsertDesc(x: Booking, bs: seq<Booking>): (r: seq<Booking>)
    requires SortedByCheckInDesc(bs)
    ensures SortedByCheckInDesc(r)
    ensures multiset(r) == multiset(bs) + multiset{x}
  {
    if |bs| == 0 then [x]
    else if x.checkIn >= bs[0].checkIn then [x] + bs
    else
      assert bs == [bs[0]] + bs[1..];
      var rest := InsertDesc(x, bs[1..]);
      BoundedBy(bs[0], x, bs[1..], rest);
      PrependSorted(bs[0], rest);
      [bs[0]] + rest
  }

  /** Every element of a re-arrangement of `tail` plus `x` checks in no
      later than `h`, when `x` and all of `tail` do. */
  lemma BoundedBy(h: Booking, x: Booking, tail: seq<Booking>, rest: seq<Booking>)
    requires x.checkIn <= h.checkIn
    requires forall k :: 0 <= k < |tail| ==> tail[k].checkIn <= h.checkIn
    requires multiset(rest) == multiset(tail) + multiset{x}
    ensures forall k :: 0 <= k < |rest| ==> rest[k].checkIn <= h.checkIn
  {
    forall k | 0 <= k < |rest| ensures rest[k].checkIn <= h.checkIn {
      assert rest[k] in multiset(rest);
      if rest[k] != x {
        assert rest[k] in multiset(tail);
        assert rest[k] in tail;
      }
    }
  }

  lemma PrependSorted(h: Booking, rest: seq<Booking>)
    requires SortedByCheckInDesc(rest)
    requires forall k :: 0 <= k < |rest| ==> rest[k].checkIn <= h.checkIn
    ensures SortedByCheckInDesc([h] + rest)
  {
  }

  /** `.sort({ checkIn: -1 })` */
  function SortByCheckInDesc(bs: seq<Booking>): (r: seq<Booking>)
    ensures SortedByCheckInDesc(r)
    ensures multiset(r) == multiset(bs)
  {
    if |bs| == 0 then []
    else
      assert bs == [bs[0]] + bs[1..];
      InsertDesc(bs[0], SortByCheckInDesc(bs[1..]))
  }

  /** `myBookings` and the `/my-bookings` route: exactly the current user's
      bookings, each as many times as it is stored, latest check-in first. */
  function MyBookings(s: Store, user: UserId): (r: seq<Booking>)
    ensures SortedByCheckInDesc(r)
    ensures forall b :: multiset(r)[b] == if b.user == user then multiset(s.bookings)[b] else 0
    ensures forall b :: b in r <==> b in s.bookings && b.user == user
  {
    var r := SortByCheckInDesc(OwnedBy(s.bookings, user));
    assert forall b :: b in r <==> b in multiset(r);
    r
  }
}

=== FILE: bookings.dfy ===
/** The booking engine of controllers/bookings.js (`createBooking`) and the
    older booking route kept in routes/listing.js, as pure steps over a
    store of listings and bookings.

    A listing is seen here only through the state the engine reads and
    writes: its nightly price, the `isBooked` flag and the ids of the
    bookings pushed onto it. Bookings live in one sequence; a booking's id
    is its position in that sequence, so a new booking's id is the length
    of the sequence before it is appended. Dates are milliseconds since the
    epoch and prices are whole numbers. */
module Bookings {
  import opened Common

  /** `1000 * 60 * 60 * 24`: the length of one night in milliseconds. */
  const MsPerDay: int := 1000 * 60 * 60 * 24

  datatype Booking = Booking(
    listing: ListingId,
    user: UserId,
    checkIn: int,
    checkOut: int,
    guests: int,
    totalPrice: int)

  datatype ListingState = ListingState(price: int, isBooked: bool, bookings: seq<BookingId>)

  datatype Store = Store(listings: map<ListingId, ListingState>, bookings: seq<Booking>)

  /** The fields of a booking form once the listing id has been cast: the
      listing, the stay and the party size. Nothing requires
      `checkIn < checkOut` or `guests >= 1`. */
  datatype Request = Request(listing: ListingId, checkIn: int, checkOut: int, guests: int)

  /** The booking form as it arrives: the listing id may be missing, and
      when present it is request text, which need not be a well-formed
      database id. */
  datatype Form = Form(listingId: Option<IdParam>, checkIn: int, checkOut: int, guests: int)

  /** The request a form with a well-formed listing id stands for. */
  function Parsed(f: Form): (r: Request)
    requires f.listingId.Some? && f.listingId.value.Wellformed?
  {
    Request(f.listingId.value.id, f.checkIn, f.checkOut, f.guests)
  }

  datatype Outcome = Outcome(reply: Reply, store: Store)

  const NotFoundReply: Reply := Redirected(Error("Listing not found"), ToPath("/listings"))

  function AlreadyBookedReply(l: ListingId): Reply
  {
    Redirected(Error("This property is already booked"), ToListing(l))
  }

  function UnavailableReply(l: ListingId): Reply
  {
    Redirected(Error("This property is not available for the selected dates"), ToListing(l))
  }

  function ConfirmedReply(b: BookingId): Reply
  {
    Redirected(Success("Booking confirmed!"), ToBooking(b))
  }

  // ---------------------------------------------------------------------
  // Nights and price

  /** `Math.ceil(a / d)` for a positive divisor, on whole numbers. */
  function CeilDiv(a: int, d: int): (q: int)
    requires d > 0
    ensures d * (q - 1) < a <= d * q
  {
    var k := (-a) / d;
    assert -a == d * k + (-a) % d;
    -k
  }

  /** The number of started nights between check-in and check-out, which
      is zero or negative when check-out is not after check-in. */
  function Nights(checkIn: int, checkOut: int): (n: int)
    ensures MsPerDay * (n - 1) < checkOut - checkIn <= MsPerDay * n
  {
    CeilDiv(checkOut - checkIn, MsPerDay)
  }

  function TotalPrice(price: int, checkIn: int, checkOut: int, guests: int): int
  {
    price * Nights(checkIn, checkOut) * guests
  }

  /** A stay of a whole number of days is charged exactly that many nights. */
  lemma WholeDaysAreNights(checkIn: int, days: int)
    ensures Nights(checkIn, checkIn + days * MsPerDay) == days
  {
    var n := Nights(checkIn, checkIn + days * MsPerDay);
    assert MsPerDay * (n - 1 - days) < 0;
    assert MsPerDay * (days - n) <= 0;
  }

  /** The number of nights is positive exactly when check-out is after
      check-in. */
  lemma NightsPositiveIffForward(checkIn: int, checkOut: int)
    ensures Nights(checkIn, checkOut) >= 1 <==> checkOut > checkIn
  {
    var n := Nights(checkIn, checkOut);
    if n <= 0 {
      assert MsPerDay * n <= 0;
    }
    if n >= 1 {
      assert MsPerDay * n >= MsPerDay;
      assert MsPerDay * (n - 1) >= 0;
    }
  }

  /** For a forward stay, a party of at least one at a non-negative price
      pays at least one night for every guest. */
  lemma ForwardStayCostsAtLeastOneNight(price: int, checkIn: int, checkOut: int, guests: int)
    requires checkOut > checkIn && guests >= 1 && price >= 0
    ensures TotalPrice(price, checkIn, checkOut, guests) >= price * guests
  {
    NightsPositiveIffForward(checkIn, checkOut);
    var n := Nights(checkIn, checkOut);
    assert price * n >= price;
    assert price * n * guests >= price * guests;
  }

  /** 2024-01-01 to 2024-01-04 (UTC) for two guests at 100 a night: three
      nights, 600 in total. */
  lemma ThreeNightsForTwoExample()
    ensures Nights(1704067200000, 1704326400000) == 3
    ensures TotalPrice(100, 1704067200000, 1704326400000, 2) == 600
  {
    WholeDaysAreNights(1704067200000, 3);
  }

  // ---------------------------------------------------------------------
  // The conflict query

  /** The half-open interval test of the conflict query: the existing
      booking starts before the requested check-out and ends after the
      requested check-in. */
  predicate Overlaps(e: Booking, checkIn: int, checkOut: int)
  {
    e.checkIn < checkOut && e.checkOut > checkIn
  }

  /** A stored booking that the conflict query matches for request `r`. */
  predicate Clashes(e: Booking, r: Request)
  {
    e.listing == r.listing && Overlaps(e, r.checkIn, r.checkOut)
  }

  predicate HasConflict(s: Store, r: Request)
  {
    exists i :: 0 <= i < |s.bookings| && Clashes(s.bookings[i], r)
  }

  /** The overlap relation between two bookings is symmetric. */
  lemma OverlapSymmetric(a: Booking, b: Booking)
    ensures Overlaps(a, b.checkIn, b.checkOut) <==> Overlaps(b, a.checkIn, a.checkOut)
  {
  }

  /** A stay that ends on the day another starts does not conflict with it. */
  lemma AdjacentStaysDoNotConflict(e: Booking, r: Request)
    requires e.checkOut == r.checkIn
    ensures !Clashes(e, r)
  {
  }

  /** `Booking.findOne(...)`: the first stored booking, from position
      `from` on, that the conflict query matches. */
  function FindConflict(bs: seq<Booking>, r: Request, from: nat): (k: Option<nat>)
    requires from <= |bs|
    ensures k.Some? ==> from <= k.value < |bs| && Clashes(bs[k.value], r)
    ensures k.Some? ==> forall i :: from <= i < k.value ==> !Clashes(bs[i], r)
    ensures k.None? <==> forall i :: from <= i < |bs| ==> !Clashes(bs[i], r)
    decreases |bs| - from
  {
    if from == |bs| then None
    else if Clashes(bs[from], r) then Some(from)
    else FindConflict(bs, r, from + 1)
  }

  // ---------------------------------------------------------------------
  // createBooking

  /** The request passes every check of `createBooking`. */
  predicate Admissible(s: Store, r: Request)
  {
    r.listing in s.listings && !s.listings[r.listing].isBooked && !HasConflict(s, r)
  }

  /** The booking `createBooking` stores for an admissible request. */
  function NewBooking(s: Store, user: UserId, r: Request): Booking
    requires r.listing in s.listings
  {
    Booking(r.listing, user, r.checkIn, r.checkOut, r.guests,
            TotalPrice(s.listings[r.listing].price, r.checkIn, r.checkOut, r.guests))
  }

  /** `createBooking`: reject a missing listing, a listing already marked
      booked, and a request that overlaps a stored booking of the listing;
      otherwise store the priced booking, mark the listing booked and push
      the booking's id onto it. */
  function CreateBooking(s: Store, user: UserId, r: Request): (o: Outcome)
    ensures r.listing !in s.listings ==> o == Outcome(NotFoundReply, s)
    ensures r.listing in s.listings && s.listings[r.listing].isBooked ==>
      o == Outcome(AlreadyBookedReply(r.listing), s)
    ensures r.listing in s.listings && !s.listings[r.listing].isBooked && HasConflict(s, r) ==>
      o == Outcome(UnavailableReply(r.listing), s)
    ensures Admissible(s, r) ==>
      && o.reply == ConfirmedReply(|s.bookings|)
      && |o.store.bookings| == |s.bookings| + 1
      && o.store.bookings[..|s.bookings|] == s.bookings
      && o.store.bookings[|s.bookings|].listing == r.listing
      && o.store.bookings[|s.bookings|].user == user
      && o.store.bookings[|s.bookings|].checkIn == r.checkIn
      && o.store.bookings[|s.bookings|].checkOut == r.checkOut
      && o.store.bookings[|s.bookings|].guests == r.guests
      && o.store.bookings[|s.bookings|].totalPrice
           == s.listings[r.listing].price * Nights(r.checkIn, r.checkOut) * r.guests
    ensures Admissible(s, r) ==>
      && o.store.listings.Keys == s.listings.Keys
      && o.store.listings[r.listing].isBooked
      && o.store.listings[r.listing].price == s.listings[r.listing].price
      && o.store.listings[r.listing].bookings == s.listings[r.listing].bookings + [|s.bookings|]
      && (forall l :: l in s.listings && l != r.listing ==> o.store.listings[l] == s.listings[l])
    ensures o.store != s <==> Admissible(s, r)
  {
    if r.listing !in s.listings then
      Outcome(NotFoundReply, s)
    else
      var listing := s.listings[r.listing];
      if listing.isBooked then
        Outcome(AlreadyBookedReply(r.listing), s)
      else if FindConflict(s.bookings, r, 0).Some? then
        Outcome(UnavailableReply(r.listing), s)
      else
        var id := |s.bookings|;
        var listing' := listing.(isBooked := true, bookings := listing.bookings + [id]);
        Outcome(ConfirmedReply(id),
                Store(s.listings[r.listing := listing'], s.bookings + [NewBooking(s, user, r)]))
  }

  /** `createBooking` from the submitted form. `Listing.findById` finds
      nothing for a missing id, which is answered as a missing listing; it
      rejects a malformed id with a cast error, which reaches the error page
      before anything is read or stored; a well-formed id goes through the
      checks above. */
  function SubmitBooking(s: Store, user: UserId, f: Form): (o: Outcome)
    ensures f.listingId.None? ==> o == Outcome(NotFoundReply, s)
    ensures f.listingId == Some(Malformed) ==> o == Outcome(ErrorPage(500), s)
    ensures f.listingId.Some? && f.listingId.value.Wellformed? ==> o == CreateBooking(s, user, Parsed(f))
    ensures o.store != s <==> f.listingId.Some? && f.listingId.value.Wellformed? && Admissible(s, Parsed(f))
  {
    match f.listingId
    case None => Outcome(NotFoundReply, s)
    case Some(Malformed) => Outcome(ErrorPage(500), s)
    case Some(Wellformed(_)) => CreateBooking(s, user, Parsed(f))
  }

  // ---------------------------------------------------------------------
  // Store invariants

  /** No two stored bookings of the same listing overlap. */
  predicate NoOverlap(s: Store)
  {
    forall i, j ::
      0 <= i < |s.bookings| && 0 <= j < |s.bookings| && i != j
      && s.bookings[i].listing == s.bookings[j].listing
      ==> !Overlaps(s.bookings[i], s.bookings[j].checkIn, s.bookings[j].checkOut)
  }

  /** Every id pushed onto a listing names a stored booking of that listing. */
  predicate RefsConsistent(s: Store)
  {
    forall l, k :: l in s.listings && 0 <= k < |s.listings[l].bookings| ==>
      s.listings[l].bookings[k] < |s.bookings| && s.bookings[s.listings[l].bookings[k]].listing == l
  }

  /** `createBooking` keeps the bookings of every listing pairwise
      non-overlapping. */
  lemma CreateBookingPreservesNoOverlap(s: Store, user: UserId, r: Request)
    requires NoOverlap(s)
    ensures NoOverlap(CreateBooking(s, user, r).store)
  {
    if Admissible(s, r) {
      var s' := CreateBooking(s, user, r).store;
      var n := |s.bookings|;
      forall i, j | 0 <= i < |s'.bookings| && 0 <= j < |s'.bookings| && i != j
                    && s'.bookings[i].listing == s'.bookings[j].listing
        ensures !Overlaps(s'.bookings[i], s'.bookings[j].checkIn, s'.bookings[j].checkOut)
      {
        if i == n {
          assert !Clashes(s.bookings[j], r);
          OverlapSymmetric(s'.bookings[i], s'.bookings[j]);
        } else if j == n {
          assert !Clashes(s.bookings[i], r);
        } else {
          assert s'.bookings[i] == s.bookings[i] && s'.bookings[j] == s.bookings[j];
        }
      }
    }
  }

  /** `createBooking` keeps every listing's booking ids pointing at its own
      bookings. */
  lemma CreateBookingPreservesRefs(s: Store, user: UserId, r: Request)
    requires RefsConsistent(s)
    ensures RefsConsistent(CreateBooking(s, user, r).store)
  {
    if Admissible(s, r) {
      var s' := CreateBooking(s, user, r).store;
      forall l, k | l in s'.listings && 0 <= k < |s'.listings[l].bookings|
        ensures s'.listings[l].bookings[k] < |s'.bookings|
        ensures s'.bookings[s'.listings[l].bookings[k]].listing == l
      {
        if l == r.listing && k == |s.listings[l].bookings| {
          assert s'.listings[l].bookings[k] == |s.bookings|;
        } else {
          assert s'.listings[l].bookings[k] == s.listings[l].bookings[k];
        }
      }
    }
  }

  /** Whatever form is submitted, no two bookings of a listing come to
      overlap. */
  lemma SubmitBookingPreservesNoOverlap(s: Store, user: UserId, f: Form)
    requires NoOverlap(s)
    ensures NoOverlap(SubmitBooking(s, user, f).store)
  {
    if f.listingId.Some? && f.listingId.value.Wellformed? {
      CreateBookingPreservesNoOverlap(s, user, Parsed(f));
    }
  }

  /** Once a booking of a listing succeeds, every later `createBooking` for
      that listing is turned away and changes nothing. */
  lemma BookedListingRejectsLaterRequests(s: Store, user: UserId, r: Request, user2: UserId, r2: Request)
    requires Admissible(s, r) && r2.listing == r.listing
    ensures var s' := CreateBooking(s, user, r).store;
            CreateBooking(s', user2, r2) == Outcome(AlreadyBookedReply(r.listing), s')
  {
  }

  /** Nothing checks the dates or the guest count: a stay that ends where
      it starts is booked for no nights at no cost and closes the listing,
      so even the stay that begins where it ends is turned away. */
  lemma EmptyStayIsBooked()
    ensures var s := Store(map[0 := ListingState(100, false, [])], []);
            var o := CreateBooking(s, 1, Request(0, MsPerDay, MsPerDay, 2));
            && o.reply == ConfirmedReply(0)
            && o.store.bookings[0].totalPrice == 0
            && CreateBooking(o.store, 2, Request(0, MsPerDay, 2 * MsPerDay, 1)).reply == AlreadyBookedReply(0)
  {
    var s := Store(map[0 := ListingState(100, false, [])], []);
    assert Nights(MsPerDay, MsPerDay) == 0;
    assert !HasConflict(s, Request(0, MsPerDay, MsPerDay, 2));
  }

  /** A run of booking requests, each applied to the store the previous one
      left. */
  function Replay(s: Store, reqs: seq<(UserId, Request)>): Store
    decreases |reqs|
  {
    if |reqs| == 0 then s
    else Replay(CreateBooking(s, reqs[0].0, reqs[0].1).store, reqs[1..])
  }

  /** No sequence of `createBooking` calls makes two bookings of one listing
      overlap. */
  lemma {:induction false} ReplayPreservesNoOverlap(s: Store, reqs: seq<(UserId, Request)>)
    requires NoOverlap(s)
    ensures NoOverlap(Replay(s, reqs))
    decreases |reqs|
  {
    if |reqs| > 0 {
      CreateBookingPreservesNoOverlap(s, reqs[0].0, reqs[0].1);
      ReplayPreservesNoOverlap(CreateBooking(s, reqs[0].0, reqs[0].1).store, reqs[1..]);
    }
  }

  /** Bookings are only ever appended, and a listing already marked booked
      receives no new booking from any sequence of `createBooking` calls. */
  lemma {:induction false} BookedListingStaysClosed(s: Store, reqs: seq<(UserId, Request)>, l: ListingId)
    requires l in s.listings && s.listings[l].isBooked
    ensures var t := Replay(s, reqs);
            && |s.bookings| <= |t.bookings|
            && t.bookings[..|s.bookings|] == s.bookings
            && l in t.listings && t.listings[l].isBooked
            && forall i :: |s.bookings| <= i < |t.bookings| ==> t.bookings[i].listing != l
    decreases |reqs|
  {
    if |reqs| > 0 {
      var s1 := CreateBooking(s, reqs[0].0, reqs[0].1).store;
      var t := Replay(s1, reqs[1..]);
      BookedListingStaysClosed(s1, reqs[1..], l);
      assert t.bookings[..|s1.bookings|][..|s.bookings|] == t.bookings[..|s.bookings|];
    }
  }

  // ---------------------------------------------------------------------
  // The older booking route in routes/listing.js

  /** `POST /listings/:id/bookings`: price the stay with the same formula
      and store the booking without looking at `isBooked` or at the stored
      bookings, and without touching the listing. A missing listing makes
      `listing.price` throw, which ends on the error page. */
  function LegacyCreateBooking(s: Store, user: UserId, r: Request): (o: Outcome)
    ensures r.listing !in s.listings ==> o == Outcome(ErrorPage(500), s)
    ensures r.listing in s.listings ==>
      && o.reply == ConfirmedReply(|s.bookings|)
      && o.store.listings == s.listings
      && |o.store.bookings| == |s.bookings| + 1
      && o.store.bookings[..|s.bookings|] == s.bookings
      && o.store.bookings[|s.bookings|].user == user
      && o.store.bookings[|s.bookings|].listing == r.listing
      && o.store.bookings[|s.bookings|].checkIn == r.checkIn
      && o.store.bookings[|s.bookings|].checkOut == r.checkOut
      && o.store.bookings[|s.bookings|].guests == r.guests
      && o.store.bookings[|s.bookings|].totalPrice
           == s.listings[r.listing].price * Nights(r.checkIn, r.checkOut) * r.guests
  {
    if r.listing !in s.listings then Outcome(ErrorPage(500), s)
    else Outcome(ConfirmedReply(|s.bookings|), s.(bookings := s.bookings + [NewBooking(s, user, r)]))
  }

  /** The `booking` object the older route reads its stay from. */
  datatype Stay = Stay(checkIn: int, checkOut: int, guests: int)

  /** The older route on its `:id` parameter and the form's `booking`
      object: a malformed id makes `Listing.findById` reject with a cast
      error, and a form without the `booking` object makes reading its
      fields throw; the route's `catch` passes either on to the error page,
      as it does for a missing listing. */
  function SubmitLegacyBooking(s: Store, user: UserId, id: IdParam, booking: Option<Stay>): (o: Outcome)
    ensures id.Malformed? || booking.None? ==> o == Outcome(ErrorPage(500), s)
    ensures id.Wellformed? && booking.Some? ==>
      o == LegacyCreateBooking(s, user, Request(id.id, booking.value.checkIn, booking.value.checkOut, booking.value.guests))
    ensures o.store != s <==> id.Wellformed? && booking.Some? && id.id in s.listings
  {
    match (id, booking)
    case (Wellformed(l), Some(b)) => LegacyCreateBooking(s, user, Request(l, b.checkIn, b.checkOut, b.guests))
    case _ => Outcome(ErrorPage(500), s)
  }

  /** On a request the controller accepts, the older route stores the very
      same booking under the same id; it differs only in leaving the
      listing's `isBooked` flag and booking ids alone. */
  lemma LegacyStoresSameBooking(s: Store, user: UserId, r: Request)
    requires Admissible(s, r)
    ensures LegacyCreateBooking(s, user, r).reply == CreateBooking(s, user, r).reply
    ensures LegacyCreateBooking(s, user, r).store.bookings == CreateBooking(s, user, r).store.bookings
    ensures LegacyCreateBooking(s, user, r).store.listings == s.listings
  {
  }

  /** The older route keeps the listing-to-booking references valid. */
  lemma LegacyPreservesRefs(s: Store, user: UserId, r: Request)
    requires RefsConsistent(s)
    ensures RefsConsistent(LegacyCreateBooking(s, user, r).store)
  {
    var s' := LegacyCreateBooking(s, user, r).store;
    forall l, k | l in s'.listings && 0 <= k < |s'.listings[l].bookings|
      ensures s'.listings[l].bookings[k] < |s'.bookings|
      ensures s'.bookings[s'.listings[l].bookings[k]].listing == l
    {
      assert s'.bookings[s.listings[l].bookings[k]] == s.bookings[s.listings[l].bookings[k]];
    }
  }

  /** The older route can break the no-overlap invariant: a listing booked
      for one night takes a second booking for the same night, which
      `createBooking` turns away. */
  lemma LegacyBreaksNoOverlap()
    ensures var s := Store(map[0 := ListingState(100, true, [0])], [Booking(0, 1, 0, MsPerDay, 1, 100)]);
            var r := Request(0, 0, MsPerDay, 1);
            && NoOverlap(s)
            && !NoOverlap(LegacyCreateBooking(s, 2, r).store)
            && CreateBooking(s, 2, r).store == s
  {
    var s := Store(map[0 := ListingState(100, true, [0])], [Booking(0, 1, 0, MsPerDay, 1, 100)]);
    var r := Request(0, 0, MsPerDay, 1);
    var s' := LegacyCreateBooking(s, 2, r).store;
    assert s'.bookings[0].listing == s'.bookings[1].listing;
    assert Overlaps(s'.bookings[0], s'.bookings[1].checkIn, s'.bookings[1].checkOut);
  }
}

=== FILE: cleanup.dfy ===
/** The one-off script cleanupReviews.js: drop from every listing the
    review references whose review document no longer exists.

    The script loads each listing with its references populated and keeps
    the entries that are not null. What populate yields for a missing
    review is modelled both ways: Mongoose's default leaves the entry out of
    the populated array, and only with null entries retained does the
    script's length comparison see anything to clean. */
module Cleanup {
  import opened Common
  import opened Listings

  /** Populated references with missing reviews kept as null (`None`). */
  function PopulateRetainingNulls(refs: seq<ReviewId>, live: set<ReviewId>): (p: seq<Option<ReviewId>>)
    ensures |p| == |refs|
  {
    if |refs| == 0 then []
    else [if refs[0] in live then Some(refs[0]) else None] + PopulateRetainingNulls(refs[1..], live)
  }

  /** Populated references under Mongoose's default: an entry whose review
      is missing is left out of the array. */
  function PopulateDefault(refs: seq<ReviewId>, live: set<ReviewId>): (p: seq<Option<ReviewId>>)
    ensures forall k :: 0 <= k < |p| ==> p[k].Some?
  {
    if |refs| == 0 then []
    else (if refs[0] in live then [Some(refs[0])] else []) + PopulateDefault(refs[1..], live)
  }

  /** `filter(review => review != null).map(review => review._id)` */
  function Present(ps: seq<Option<ReviewId>>): (r: seq<ReviewId>)
    ensures |r| <= |ps|
    ensures |r| == |ps| <==> forall k :: 0 <= k < |ps| ==> ps[k].Some?
  {
    if |ps| == 0 then []
    else
      var rest := Present(ps[1..]);
      assert (forall k :: 0 <= k < |ps| ==> ps[k].Some?) <==>
             ps[0].Some? && forall k :: 0 <= k < |ps[1..]| ==> ps[1..][k].Some?;
      (if ps[0].Some? then [ps[0].value] else []) + rest
  }

  /** The decision the script makes for one listing from its populated
      references: the new reference list when some entry was dropped, or
      nothing to save. */
  function CleanStep(populated: seq<Option<ReviewId>>): (r: Option<seq<ReviewId>>)
    ensures r.None? <==> forall k :: 0 <= k < |populated| ==> populated[k].Some?
    ensures r.Some? ==> r.value == Present(populated) && |r.value| < |populated|
  {
    var valid := Present(populated);
    if |valid| != |populated| then Some(valid) else None
  }

  /** As written, under Mongoose's default populate the script never finds
      anything to clean: a listing that refers to a deleted review is left
      as it is. */
  lemma DefaultPopulateKeepsDangling(refs: seq<ReviewId>, live: set<ReviewId>)
    ensures CleanStep(PopulateDefault(refs, live)).None?
  {
  }

  /** With null entries retained, the non-null entries are exactly the live
      references, in their original order. */
  lemma {:induction false} PresentOfRetained(refs: seq<ReviewId>, live: set<ReviewId>)
    ensures Present(PopulateRetainingNulls(refs, live)) == Filter<ReviewId>(refs, (x: ReviewId) => x in live)
  {
    if |refs| > 0 {
      PresentOfRetained(refs[1..], live);
      assert PopulateRetainingNulls(refs, live)[1..] == PopulateRetainingNulls(refs[1..], live);
    }
  }

  predicate AllLive(refs: seq<ReviewId>, live: set<ReviewId>)
  {
    forall k :: 0 <= k < |refs| ==> refs[k] in live
  }

  /** The listing the script saves when null entries are retained, or
      nothing to save. The script works on the document as the query
      loaded it, so a listing stored without a category is saved with the
      default one. */
  function CleanListing(l: Listing, live: set<ReviewId>): (r: Option<Listing>)
    ensures r.None? <==> AllLive(l.reviews, live)
    ensures r.Some? ==> r.value.(reviews := l.reviews) == WithDefaults(l)
    ensures r.Some? ==> forall x :: multiset(r.value.reviews)[x] == if x in live then multiset(l.reviews)[x] else 0
    ensures r.Some? ==> |r.value.reviews| < |l.reviews|
  {
    if AllLive(l.reviews, live) then None
    else
      FilterKeepsLengthIffAllPass<ReviewId>(l.reviews, (x: ReviewId) => x in live);
      Some(WithDefaults(l).(reviews := Filter<ReviewId>(l.reviews, (x: ReviewId) => x in live)))
  }

  /** After the run a listing refers to a review iff it referred to it
      before and the review exists. A listing that was not saved is as it
      was; a saved one differs only in its references and in the default
      category it was loaded with. */
  lemma CleanedKeepsExactlyLive(l: Listing, live: set<ReviewId>)
    ensures Cleaned(l, live) == l || Cleaned(l, live).(reviews := l.reviews) == WithDefaults(l)
    ensures forall x :: x in Cleaned(l, live).reviews <==> x in l.reviews && x in live
  {
    var c := Cleaned(l, live);
    assert forall x :: x in c.reviews <==> x in multiset(c.reviews);
    assert forall x :: x in l.reviews <==> x in multiset(l.reviews);
    if CleanListing(l, live).None? {
      forall x | x in l.reviews ensures x in live {
        var k :| 0 <= k < |l.reviews| && l.reviews[k] == x;
      }
    }
  }

  /** What `CleanListing` saves is what the script computes from the
      populated references with null entries retained. */
  lemma CleanListingFollowsScript(l: Listing, live: set<ReviewId>)
    ensures CleanListing(l, live).None? <==> CleanStep(PopulateRetainingNulls(l.reviews, live)).None?
    ensures CleanListing(l, live).Some? ==>
      CleanListing(l, live).value.reviews == CleanStep(PopulateRetainingNulls(l.reviews, live)).value
  {
    PresentOfRetained(l.reviews, live);
    RetainedSomeIffLive(l.reviews, live);
  }

  lemma {:induction false} RetainedSomeIffLive(refs: seq<ReviewId>, live: set<ReviewId>)
    ensures forall k :: 0 <= k < |refs| ==> (PopulateRetainingNulls(refs, live)[k].Some? <==> refs[k] in live)
  {
    if |refs| > 0 {
      RetainedSomeIffLive(refs[1..], live);
      var p := PopulateRetainingNulls(refs, live);
      assert forall k :: 1 <= k < |refs| ==> p[k] == PopulateRetainingNulls(refs[1..], live)[k - 1];
    }
  }

  /** After cleaning, a listing refers only to existing reviews. */
  lemma CleanedAllLive(l: Listing, live: set<ReviewId>)
    ensures AllLive(Cleaned(l, live).reviews, live)
  {
    CleanedKeepsExactlyLive(l, live);
    var c := Cleaned(l, live);
    forall k | 0 <= k < |c.reviews| ensures c.reviews[k] in live {
      assert c.reviews[k] in c.reviews;
    }
  }

  /** A listing stored before categories existed, with a reference to a
      deleted review, is cleaned and saved under the default category
      rather than refused. */
  lemma CategorylessListingIsCleaned()
    ensures var l := Listing("Cabin", None, Image(None, None), Some(80), None, None, [7], Some(1), Point([]), None);
            && !SaveFails(l, {})
            && CleanListing(l, {}) == Some(l.(reviews := [], category := Some("Trending")))
  {
    var l := Listing("Cabin", None, Image(None, None), Some(80), None, None, [7], Some(1), Point([]), None);
    var none: set<ReviewId> := {};
    assert l.reviews[0] !in none;
  }

  /** Cleaning a cleaned listing finds nothing more to do. */
  lemma CleanListingIdempotent(l: Listing, live: set<ReviewId>)
    requires CleanListing(l, live).Some?
    ensures CleanListing(CleanListing(l, live).value, live).None?
  {
    CleanedAllLive(l, live);
  }

  /** A listing the script saves and the database refuses. The schema
      rules do not look at the references, so the cleaned document is
      refused exactly when the loaded one, defaults applied, would be. */
  predicate SaveFails(l: Listing, live: set<ReviewId>)
  {
    !AllLive(l.reviews, live) && !SavesCleanly(WithDefaults(l))
  }

  /** The failure condition is the database refusing the cleaned document
      the script actually saves. */
  lemma SaveFailsIffCleanedRefused(l: Listing, live: set<ReviewId>)
    ensures SaveFails(l, live) <==> CleanListing(l, live).Some? && !SavesCleanly(CleanListing(l, live).value)
  {
  }

  function Cleaned(l: Listing, live: set<ReviewId>): Listing
  {
    match CleanListing(l, live)
    case None => l
    case Some(c) => c
  }

  /** `cleanupReviews` with null entries retained: every listing up to the
      first refused save loses its dangling references and nothing else;
      a listing with none is not saved; the first refused save ends the
      run. */
  method CleanupReviews(listings: seq<Listing>, live: set<ReviewId>) returns (result: seq<Listing>, completed: bool)
    ensures |result| == |listings|
    ensures completed <==> forall i :: 0 <= i < |listings| ==> !SaveFails(listings[i], live)
    ensures forall i :: 0 <= i < FirstWhere(listings, (l: Listing) => SaveFails(l, live), 0) ==> result[i] == Cleaned(listings[i], live)
    ensures forall i :: FirstWhere(listings, (l: Listing) => SaveFails(l, live), 0) <= i < |listings| ==> result[i] == listings[i]
    ensures completed ==> forall i :: 0 <= i < |result| ==> AllLive(result[i].reviews, live)
  {
    result := listings;
    var i := 0;
    while i < |listings|
      invariant 0 <= i <= |listings|
      invariant |result| == |listings|
      invariant forall k :: 0 <= k < i ==> !SaveFails(listings[k], live)
      invariant forall k :: 0 <= k < i ==> result[k] == Cleaned(listings[k], live)
      invariant forall k :: i <= k < |listings| ==> result[k] == listings[k]
    {
      if SaveFails(listings[i], live) {
        return result, false;
      }
      if CleanListing(listings[i], live).Some? {
        result := result[i := Cleaned(listings[i], live)];
      }
      i := i + 1;
    }
    completed := true;
    forall j | 0 <= j < |result| ensures AllLive(result[j].reviews, live) {
      CleanedAllLive(listings[j], live);
    }
  }
}

=== FILE: common.dfy ===
/** Values shared by every part of the model: optional values, the redirect
    targets and flash messages a handler answers with, the outcome of a
    middleware step, and the string joining used for validation messages. */
module Common {

  /** An optional value; `None` stands for a field that is absent
      (`undefined`) in a request body or a stored document. */
  datatype Option<T> = None | Some(value: T)

  type UserId = nat
  type ListingId = nat
  type ReviewId = nat
  type BookingId = nat

  /** A one-shot message shown on the next rendered page. */
  datatype Flash = Success(text: string) | Error(text: string)

  /** Where a handler sends the browser: a fixed path, or a path built
      from a listing or booking id (`/listings/<id>`, `/bookings/<id>`). */
  datatype Redirect = ToPath(path: string) | ToListing(listing: ListingId) | ToBooking(booking: BookingId)

  /** The outcome of one middleware step: call `next()`, answer with an
      error flash message and a redirect, throw an error with a status code
      that the application's error handler renders, or reject with an error
      nothing catches (a `TypeError` on a missing value, a cast error on a
      malformed id), whose handling is left to the framework. */
  datatype Gate = Next | Deny(flash: string, to: Redirect) | Throw(status: int, message: string) | Fault

  /** What a handler answers when it does not render a page: a flash
      message with a redirect, or the error page with the status of the
      error that reached it. */
  datatype Reply = Redirected(flash: Flash, to: Redirect) | ErrorPage(status: int)

  /** A route parameter that should hold a database id: either not a
      well-formed id at all, or the id it names. */
  datatype IdParam = Malformed | Wellformed(id: nat)

  /** JavaScript truthiness of an optional string: absent and "" are falsy. */
  predicate Truthy(s: Option<string>)
  {
    s.Some? && s.value != ""
  }

  /** `parts.join(sep)` */
  function Join(parts: seq<string>, sep: string): string
  {
    if |parts| == 0 then ""
    else if |parts| == 1 then parts[0]
    else parts[0] + sep + Join(parts[1..], sep)
  }

  function TotalLength(parts: seq<string>): nat
  {
    if |parts| == 0 then 0 else |parts[0]| + TotalLength(parts[1..])
  }

  /** The joined text holds every part once and one separator between
      each pair of neighbouring parts. */
  lemma {:induction false} JoinLength(parts: seq<string>, sep: string)
    requires |parts| > 0
    ensures |Join(parts, sep)| == TotalLength(parts) + (|parts| - 1) * |sep|
  {
    if |parts| > 1 {
      JoinLength(parts[1..], sep);
    }
  }

  /** The first part opens the joined text, and it is followed by the
      separator whenever there is a second part. */
  lemma JoinStartsWithFirst(parts: seq<string>, sep: string)
    requires |parts| > 0
    ensures |parts[0]| <= |Join(parts, sep)|
    ensures Join(parts, sep)[..|parts[0]|] == parts[0]
    ensures |parts| > 1 ==> Join(parts, sep)[|parts[0]|..|parts[0]| + |sep|] == sep
  {
    if |parts| > 1 {
      var rest := Join(parts[1..], sep);
      assert Join(parts, sep) == parts[0] + sep + rest;
      assert (parts[0] + sep + rest)[..|parts[0]|] == parts[0];
    }
  }

  /** The elements of `s` that satisfy `p`, in their original order
      (`Array.prototype.filter`). */
  function Filter<T(!new)>(s: seq<T>, p: T -> bool): (r: seq<T>)
    ensures |r| <= |s|
    ensures forall x :: multiset(r)[x] == if p(x) then multiset(s)[x] else 0
  {
    if |s| == 0 then []
    else
      assert s == [s[0]] + s[1..];
      (if p(s[0]) then [s[0]] else []) + Filter(s[1..], p)
  }

  /** Filtering a concatenation filters each part and keeps them in order;
      together with the one-element case this fixes the result completely,
      so the survivors keep their relative order. */
  lemma {:induction false} FilterAppend<T(!new)>(a: seq<T>, b: seq<T>, p: T -> bool)
    ensures Filter(a + b, p) == Filter(a, p) + Filter(b, p)
  {
    if |a| > 0 {
      assert (a + b)[1..] == a[1..] + b;
      FilterAppend(a[1..], b, p);
    } else {
      assert a + b == b;
    }
  }

  /** When every element passes, filtering changes nothing. */
  lemma {:induction false} FilterAllPass<T(!new)>(s: seq<T>, p: T -> bool)
    requires forall k :: 0 <= k < |s| ==> p(s[k])
    ensures Filter(s, p) == s
  {
    if |s| > 0 {
      FilterAllPass(s[1..], p);
    }
  }

  /** The result keeps its length exactly when nothing was dropped. */
  lemma {:induction false} FilterKeepsLengthIffAllPass<T(!new)>(s: seq<T>, p: T -> bool)
    ensures |Filter(s, p)| == |s| <==> forall k :: 0 <= k < |s| ==> p(s[k])
  {
    if |s| > 0 {
      FilterKeepsLengthIffAllPass(s[1..], p);
      if forall k :: 0 <= k < |s| ==> p(s[k]) {
        assert forall k :: 0 <= k < |s[1..]| ==> p(s[1..][k]) by {
          forall k | 0 <= k < |s[1..]| ensures p(s[1..][k]) {
            assert s[1..][k] == s[k + 1];
          }
        }
      } else if p(s[0]) {
        var k :| 0 <= k < |s| && !p(s[k]);
        assert !p(s[1..][k - 1]);
      }
    }
  }

  /** The position of the first element from `from` on that satisfies
      `stop`, or the end of the sequence: where a run that visits the
      elements in order and halts on the first such element halts. */
  function FirstWhere<T>(s: seq<T>, stop: T -> bool, from: nat): (k: nat)
    requires from <= |s|
    ensures from <= k <= |s|
    ensures forall i :: from <= i < k ==> !stop(s[i])
    ensures k < |s| ==> stop(s[k])
    decreases |s| - from
  {
    if from == |s| || stop(s[from]) then from else FirstWhere(s, stop, from + 1)
  }
}

=== FILE: listings.dfy ===
/** The listing document of models/listing.js and the listing handlers of
    controllers/listings.js: creation, update, deletion, the category filter
    and the guard in front of the text search.

    The geocoding service is not called: its answer is an input. An
    uploaded image is an input too (the storage service's path and file
    name). */
module Listings {
  import opened Common
  import opened Schema

  datatype Image = Image(url: Option<string>, filename: Option<string>)

  /** `geometry`: its `type` may only be "Point", so the type has exactly
      one constructor; the coordinates are a list of numbers. */
  datatype Geometry = Point(coordinates: seq<real>)

  /** A stored listing. Only the title is required by the document schema;
      description, price, location and country may be absent. A missing
      category is possible only in documents written before the field
      existed, which is what the category migration repairs. */
  datatype Listing = Listing(
    title: string,
    description: Option<string>,
    image: Image,
    price: Option<int>,
    location: Option<string>,
    country: Option<string>,
    reviews: seq<ReviewId>,
    owner: Option<UserId>,
    geometry: Geometry,
    category: Option<string>)

  /** The category a new document gets: the given one, or the schema
      default when none is given. */
  function CategoryOrDefault(c: Option<string>): (r: string)
    ensures c.Some? ==> r == c.value
    ensures c.None? ==> r == DefaultCategory && IsCategory(r)
  {
    match c
    case None => DefaultCategory
    case Some(v) => v
  }

  /** A stored listing as a query hands it back: Mongoose gives a path that
      the stored document lacks its schema default, so a listing stored
      without a category reads, and is saved again, as "Trending". */
  function WithDefaults(l: Listing): (m: Listing)
    ensures m.category.Some? && m.category.value == CategoryOrDefault(l.category)
    ensures m.(category := l.category) == l
  {
    l.(category := Some(CategoryOrDefault(l.category)))
  }

  /** What the document schema accepts on save: a non-empty title and one
      of the eleven categories. */
  predicate SavesCleanly(l: Listing)
  {
    l.title != "" && l.category.Some? && IsCategory(l.category.value)
  }

  /** The answer of the geocoding service: the request failed, it found
      nothing, or the first feature's geometry. */
  datatype Geocode = GeocodeFailed | NoFeatures | Features(first: Geometry)

  /** An uploaded file as the storage service describes it. */
  datatype Upload = Upload(path: string, filename: string)

  /** How a listing handler ends: the saved listing, an `ExpressError` with
      its status and message, or an error raised by a library (a document
      the database refuses, a failed geocoding request that nothing
      catches), which reaches the error page with that library's own
      status and message. */
  datatype Outcome = Saved(listing: Listing) | Failed(status: int, message: string) | LibraryError

  const PlaceholderUrl := "https://via.placeholder.com/300"
  const PlaceholderName := "placeholder"
  const MissingData := "Listing data is missing"
  const AllFieldsRequired := "All fields are required: title, description, price, location, country, category"
  const GeocodeError := "Failed to geocode location. Please check location and country."
  const NoCoordinates := "Invalid location or country. Could not find coordinates."

  /** `req.file?.path || placeholder` and the same for the file name: each
      falls back on its own when it is absent or empty. */
  function UploadedImage(file: Option<Upload>): (img: Image)
    ensures img.url.Some? && img.url.value != "" && img.filename.Some? && img.filename.value != ""
    ensures file.None? ==> img == Image(Some(PlaceholderUrl), Some(PlaceholderName))
    ensures file.Some? && file.value.path != "" ==> img.url == Some(file.value.path)
    ensures file.Some? && file.value.path == "" ==> img.url == Some(PlaceholderUrl)
    ensures file.Some? && file.value.filename != "" ==> img.filename == Some(file.value.filename)
    ensures file.Some? && file.value.filename == "" ==> img.filename == Some(PlaceholderName)
  {
    var url := if file.Some? && file.value.path != "" then file.value.path else PlaceholderUrl;
    var name := if file.Some? && file.value.filename != "" then file.value.filename else PlaceholderName;
    Image(Some(url), Some(name))
  }

  /** The five fields `createListing` insists on are all truthy. A form
      sends the price as text, so a present price is truthy, zero
      included. The category is named in the message but not checked. */
  predicate HasRequiredFields(b: ListingBody)
  {
    Truthy(b.title) && Truthy(b.description) && b.price.Some? && Truthy(b.location) && Truthy(b.country)
  }

  /** `createListing`: check the body and its five fields, geocode
      "location, country", then build the document owned by the current
      user and save it. */
  function CreateListing(body: Option<ListingBody>, file: Option<Upload>, geo: Geocode, user: UserId): (o: Outcome)
    ensures body.None? ==> o == Failed(400, MissingData)
    ensures body.Some? && !HasRequiredFields(body.value) ==> o == Failed(400, AllFieldsRequired)
    ensures body.Some? && HasRequiredFields(body.value) && geo.GeocodeFailed? ==> o == Failed(400, GeocodeError)
    ensures body.Some? && HasRequiredFields(body.value) && geo.NoFeatures? ==> o == Failed(400, NoCoordinates)
    ensures o.Saved? <==>
      body.Some? && HasRequiredFields(body.value) && geo.Features?
      && (body.value.category.None? || IsCategory(body.value.category.value))
    ensures o.Saved? ==>
      && SavesCleanly(o.listing)
      && o.listing.owner == Some(user)
      && o.listing.reviews == []
      && Some(o.listing.title) == body.value.title
      && o.listing.description == body.value.description
      && o.listing.price == body.value.price
      && o.listing.location == body.value.location
      && o.listing.country == body.value.country
      && o.listing.category == Some(CategoryOrDefault(body.value.category))
      && o.listing.image == UploadedImage(file)
      && o.listing.geometry == geo.first
  {
    match body
    case None => Failed(400, MissingData)
    case Some(b) =>
      if !HasRequiredFields(b) then Failed(400, AllFieldsRequired)
      else
        match geo
        case GeocodeFailed => Failed(400, GeocodeError)
        case NoFeatures => Failed(400, NoCoordinates)
        case Features(g) =>
          var l := Listing(b.title.value, b.description, UploadedImage(file), b.price,
                           b.location, b.country, [], Some(user), g, Some(CategoryOrDefault(b.category)));
          Save(l)
  }

  /** A form with no upload gets the placeholder image. */
  lemma NoUploadGetsPlaceholder(body: ListingBody, g: Geometry, user: UserId)
    requires ValidListingBody(body)
    ensures CreateListing(Some(body), None, Features(g), user).Saved?
    ensures CreateListing(Some(body), None, Features(g), user).listing.image
            == Image(Some(PlaceholderUrl), Some(PlaceholderName))
  {
  }

  const NotFoundMessage := "Listing you requested for does not exist!"

  /** `updateListing` as written. `listing.set({ ...req.body })` hands the
      document a single key, `listing`, which is not a path of the schema,
      so strict mode drops it and no text field changes. Only the image
      (when a file was uploaded) and the geometry (when both location and
      country are truthy) are replaced. The document is the one loaded, so
      it carries its schema defaults, and saving it runs the schema's
      checks: a stored listing the schema refuses (an empty title, a label
      outside the eleven) makes the save reject, after the geocoding. */
  function UpdateListing(store: map<ListingId, Listing>, id: ListingId, body: ListingBody,
                         file: Option<Upload>, geo: Geocode): (o: Outcome)
    ensures id !in store ==> o == Failed(404, NotFoundMessage)
    ensures id in store && Truthy(body.location) && Truthy(body.country) && geo.NoFeatures? ==>
      o == Failed(400, "Invalid location or country")
    ensures id in store && Truthy(body.location) && Truthy(body.country) && geo.GeocodeFailed? ==>
      o == LibraryError
    ensures id in store && !SavesCleanly(WithDefaults(store[id])) ==> !o.Saved?
    ensures id in store && !SavesCleanly(WithDefaults(store[id])) && !geo.NoFeatures? ==> o == LibraryError
    ensures o.Saved? ==>
      && id in store
      && SavesCleanly(o.listing)
      && o.listing == WithDefaults(store[id]).(image := o.listing.image, geometry := o.listing.geometry)
      && (file.None? ==> o.listing.image == store[id].image)
      && (file.Some? ==> o.listing.image == Image(Some(file.value.path), Some(file.value.filename)))
      && (!(Truthy(body.location) && Truthy(body.country)) ==> o.listing.geometry == store[id].geometry)
      && (Truthy(body.location) && Truthy(body.country) ==> geo.Features? && o.listing.geometry == geo.first)
    ensures (&& id in store && SavesCleanly(WithDefaults(store[id]))
             && (!(Truthy(body.location) && Truthy(body.country)) || geo.Features?)) ==> o.Saved?
  {
    if id !in store then Failed(404, NotFoundMessage)
    else
      var l := WithDefaults(store[id]);
      var l1 := if file.Some? then l.(image := Image(Some(file.value.path), Some(file.value.filename))) else l;
      if Truthy(body.location) && Truthy(body.country) then
        match geo
        case GeocodeFailed => LibraryError
        case NoFeatures => Failed(400, "Invalid location or country")
        case Features(g) => Save(l1.(geometry := g))
      else Save(l1)
  }

  /** `listing.save()`: the schema's checks decide whether the document is
      written. */
  function Save(l: Listing): (o: Outcome)
    ensures o.Saved? <==> SavesCleanly(l)
    ensures o.Saved? ==> o.listing == l
  {
    if SavesCleanly(l) then Saved(l) else LibraryError
  }

  /** A listing stored without a category is saved back with the default
      one by an update that changes nothing else; one whose stored title is
      empty cannot be updated at all. */
  lemma UpdateWritesDefaultCategory(store: map<ListingId, Listing>, id: ListingId, body: ListingBody)
    requires id in store && store[id].title != "" && store[id].category.None?
    requires !Truthy(body.location)
    ensures UpdateListing(store, id, body, None, NoFeatures) == Saved(store[id].(category := Some(DefaultCategory)))
    ensures UpdateListing(store[id := store[id].(title := "")], id, body, None, NoFeatures) == LibraryError
  {
  }

  /** The edit is lost: a valid form that renames a listing and moves it
      leaves the stored title and location as they were, while the map
      position follows the new location. */
  lemma UpdateDropsEditedFields(store: map<ListingId, Listing>, id: ListingId, body: ListingBody, g: Geometry)
    requires id in store && ValidListingBody(body) && SavesCleanly(WithDefaults(store[id]))
    requires body.title.value != store[id].title && body.location != store[id].location
    ensures UpdateListing(store, id, body, None, Features(g)).Saved?
    ensures UpdateListing(store, id, body, None, Features(g)).listing.title != body.title.value
    ensures UpdateListing(store, id, body, None, Features(g)).listing.location != body.location
    ensures UpdateListing(store, id, body, None, Features(g)).listing.geometry == g
  {
  }

  /** `updateListing` as evidently intended: the validated form's fields are
      written to the document before the image and geometry are handled. */
  function UpdateListingIntended(store: map<ListingId, Listing>, id: ListingId, body: ListingBody,
                                 file: Option<Upload>, geo: Geocode): (o: Outcome)
    requires ValidListingBody(body)
    ensures id !in store ==> o == Failed(404, NotFoundMessage)
    ensures geo.NoFeatures? ==> o == Failed(400, "Invalid location or country") || id !in store
    ensures o.Saved? ==>
      && id in store
      && SavesCleanly(o.listing)
      && Some(o.listing.title) == body.title
      && o.listing.description == body.description
      && o.listing.price == body.price
      && o.listing.location == body.location
      && o.listing.country == body.country
      && o.listing.category == body.category
      && geo.Features? && o.listing.geometry == geo.first
      && o.listing.reviews == store[id].reviews
      && o.listing.owner == store[id].owner
      && (file.None? ==> o.listing.image == store[id].image)
    ensures id in store && geo.Features? ==> o.Saved?
  {
    if id !in store then Failed(404, NotFoundMessage)
    else
      var l := store[id].(title := body.title.value, description := body.description, price := body.price,
                          location := body.location, country := body.country, category := body.category);
      var l1 := if file.Some? then l.(image := Image(Some(file.value.path), Some(file.value.filename))) else l;
      match geo
      case GeocodeFailed => LibraryError
      case NoFeatures => Failed(400, "Invalid location or country")
      case Features(g) => Saved(l1.(geometry := g))
  }

  /** `destroyListing`: delete the document if it exists. Its reviews are
      not touched (this is a map of listings only), and deleting a missing
      id changes nothing. */
  function DestroyListing(store: map<ListingId, Listing>, id: ListingId): (m: map<ListingId, Listing>)
    ensures m.Keys == store.Keys - {id}
    ensures forall k :: k in m ==> m[k] == store[k]
  {
    store - {id}
  }

  // ---------------------------------------------------------------------
  // Category filter

  const InvalidCategory := "Invalid category"

  /** How the category page ends: an `ExpressError` with its status and
      message, or the listings it shows. */
  datatype CategoryPage = Rejected(status: int, message: string) | Page(listings: seq<Listing>)

  /** `filterByCategory`: a label outside the allow-list is a 400 error;
      otherwise the listings stored under exactly that label, in store
      order. */
  function FilterByCategory(listings: seq<Listing>, category: string): (o: CategoryPage)
    ensures o.Rejected? <==> !IsCategory(category)
    ensures o.Rejected? ==> o == Rejected(400, InvalidCategory)
    ensures o.Page? ==> forall l :: multiset(o.listings)[l] == if l.category == Some(category) then multiset(listings)[l] else 0
    ensures o.Page? ==> forall l :: l in o.listings <==> l in listings && l.category == Some(category)
  {
    if !IsCategory(category) then Rejected(400, InvalidCategory)
    else
      var r := Filter(listings, (l: Listing) => l.category == Some(category));
      assert forall l :: l in r <==> l in multiset(r);
      Page(r)
  }

  /** Labels differ in case: the filter is exact. */
  lemma CategoryFilterIsCaseSensitive()
    ensures FilterByCategory([], "trending") == Rejected(400, InvalidCategory)
    ensures FilterByCategory([], "Trending").Page?
  {
  }

  // ---------------------------------------------------------------------
  // Search guard

  /** The characters `String.prototype.trim` removes: white space and line
      terminators. */
  predicate IsTrimmable(c: char)
  {
    || c == '\t' || c == '\n' || c == '\U{000B}' || c == '\U{000C}' || c == '\r' || c == ' '
    || c == '\U{00A0}' || c == '\U{1680}' || ('\U{2000}' <= c <= '\U{200A}')
    || c == '\U{2028}' || c == '\U{2029}' || c == '\U{202F}' || c == '\U{205F}'
    || c == '\U{3000}' || c == '\U{FEFF}'
  }

  /** The position of the first character from `from` on that trimming
      keeps, or the end of the text. */
  function TrimLead(s: string, from: nat): (i: nat)
    requires from <= |s|
    ensures from <= i <= |s|
    ensures forall k :: from <= k < i ==> IsTrimmable(s[k])
    ensures i < |s| ==> !IsTrimmable(s[i])
    decreases |s| - from
  {
    if from < |s| && IsTrimmable(s[from]) then TrimLead(s, from + 1) else from
  }

  /** The position just past the last character before `hi` (and from `lo`
      on) that trimming keeps, or `lo`. */
  function TrimTrail(s: string, lo: nat, hi: nat): (j: nat)
    requires lo <= hi <= |s|
    ensures lo <= j <= hi
    ensures forall k :: j <= k < hi ==> IsTrimmable(s[k])
    ensures j > lo ==> !IsTrimmable(s[j - 1])
    decreases hi - lo
  {
    if hi > lo && IsTrimmable(s[hi - 1]) then TrimTrail(s, lo, hi - 1) else hi
  }

  /** `query.trim()`: the text between the leading and the trailing run
      of trimmable characters. */
  function Trim(s: string): (r: string)
    ensures |r| > 0 ==> !IsTrimmable(r[0]) && !IsTrimmable(r[|r| - 1])
    ensures r == "" <==> forall k :: 0 <= k < |s| ==> IsTrimmable(s[k])
    ensures TrimLead(s, 0) + |r| <= |s| && r == s[TrimLead(s, 0)..TrimLead(s, 0) + |r|]
    ensures forall k :: 0 <= k < TrimLead(s, 0) ==> IsTrimmable(s[k])
    ensures forall k :: TrimLead(s, 0) + |r| <= k < |s| ==> IsTrimmable(s[k])
  {
    var i := TrimLead(s, 0);
    var j := TrimTrail(s, i, |s|);
    assert i < |s| ==> j > i;
    s[i..j]
  }

  datatype SearchOutcome = EmptyQuery(flash: Flash, to: Redirect) | SearchFor(term: string)

  /** The guard of `searchListings`: an absent query, or one that is empty
      once trimmed, redirects to the listings with an error and searches
      nothing; otherwise the trimmed text is searched for. */
  function SearchListings(query: Option<string>): (o: SearchOutcome)
    ensures o.EmptyQuery? ==> o == EmptyQuery(Error("Please enter a search term"), ToPath("/listings"))
    ensures o.EmptyQuery? <==> query.None? || forall k :: 0 <= k < |query.value| ==> IsTrimmable(query.value[k])
    ensures o.SearchFor? ==>
      && |o.term| > 0 && !IsTrimmable(o.term[0]) && !IsTrimmable(o.term[|o.term| - 1])
      && o.term == Trim(query.value)
  {
    if query.None? || query.value == "" || Trim(query.value) == "" then
      EmptyQuery(Error("Please enter a search term"), ToPath("/listings"))
    else SearchFor(Trim(query.value))
  }
}

=== FILE: middleware.dfy ===
/** The request guards of middleware.js. Each guard is a function from the
    request and the stored documents it reads to a `Gate`: let the request
    through, or answer it and stop. */
module Middleware {
  import opened Common
  import opened Schema
  import Bookings
  import Listings
  import Reviews

  // ---------------------------------------------------------------------
  // Authentication and ownership

  const SignInFirst := "You must be signed in first!"

  /** `isLoggedIn`: only an authenticated request passes; any other is sent
      to the login page. */
  function IsLoggedIn(authenticated: bool): (g: Gate)
    ensures g.Next? <==> authenticated
    ensures !authenticated ==> g == Deny(SignInFirst, ToPath("/login"))
  {
    if !authenticated then Deny(SignInFirst, ToPath("/login")) else Next
  }

  /** `isOwner`: a missing listing goes back to the index; a listing owned
      by someone else goes back to its page. The guard is an async function
      that no route wraps, so what goes wrong inside it is a rejection
      nothing catches: `Listing.findById` on a malformed id fails with a
      cast error, and comparing owners reads `listing.owner._id` and
      `currUser._id`, which fails when either is missing. */
  function IsOwner(listings: map<ListingId, Listings.Listing>, id: IdParam, currUser: Option<UserId>): (g: Gate)
    ensures g.Next? <==> id.Wellformed? && id.id in listings && currUser.Some? && listings[id.id].owner == currUser
    ensures id.Malformed? ==> g == Fault
    ensures id.Wellformed? && id.id !in listings ==> g == Deny("Listing not found!", ToPath("/listings"))
    ensures g.Fault? <==> id.Malformed? || (id.id in listings && (listings[id.id].owner.None? || currUser.None?))
    ensures id.Wellformed? && id.id in listings && currUser.Some? && listings[id.id].owner.Some?
            && listings[id.id].owner != currUser ==>
      g == Deny("You don't have permission to do that!", ToListing(id.id))
  {
    match id
    case Malformed => Fault
    case Wellformed(l) =>
      if l !in listings then Deny("Listing not found!", ToPath("/listings"))
      else
        var owner := listings[l].owner;
        if owner.None? || currUser.None? then Fault
        else if owner.value != currUser.value then Deny("You don't have permission to do that!", ToListing(l))
        else Next
  }

  /** `isReviewAuthor`: the review id must be well formed, the review must
      exist, and the current user must be its author, checked in that
      order; every refusal returns to the listing's page. */
  function IsReviewAuthor(reviews: map<ReviewId, Reviews.Review>, listingId: ListingId, reviewId: IdParam,
                          currUser: Option<UserId>): (g: Gate)
    ensures g.Next? <==> reviewId.Wellformed? && reviewId.id in reviews && currUser == Some(reviews[reviewId.id].author)
    ensures !g.Next? ==> g.Deny? && g.to == ToListing(listingId)
    ensures reviewId.Malformed? ==> g.flash == "Invalid review ID"
    ensures reviewId.Wellformed? && reviewId.id !in reviews ==> g.flash == "Review not found"
    ensures reviewId.Wellformed? && reviewId.id in reviews && currUser != Some(reviews[reviewId.id].author) ==>
      g.flash == "You are not the author of this review!"
  {
    match reviewId
    case Malformed => Deny("Invalid review ID", ToListing(listingId))
    case Wellformed(r) =>
      if r !in reviews then Deny("Review not found", ToListing(listingId))
      else if currUser.None? || reviews[r].author != currUser.value then
        Deny("You are not the author of this review!", ToListing(listingId))
      else Next
  }

  /** `listingExists`: the id must be well formed and name a stored
      listing; otherwise back to the index. */
  function ListingExists(listings: map<ListingId, Listings.Listing>, id: IdParam): (g: Gate)
    ensures g.Next? <==> id.Wellformed? && id.id in listings
    ensures id.Malformed? ==> g == Deny("Invalid listing ID", ToPath("/listings"))
    ensures id.Wellformed? && id.id !in listings ==> g == Deny("Listing not found", ToPath("/listings"))
  {
    match id
    case Malformed => Deny("Invalid listing ID", ToPath("/listings"))
    case Wellformed(l) => if l !in listings then Deny("Listing not found", ToPath("/listings")) else Next
  }

  const AlreadyBooked := "This property is already booked"

  /** `checkListingAvailability` on the route parameter `id`, which may be
      absent: only a stored listing that is already booked is refused; a
      missing listing, or no id at all, passes. */
  function CheckListingAvailability(store: Bookings.Store, id: Option<ListingId>): (g: Gate)
    ensures !g.Next? <==> id.Some? && id.value in store.listings && store.listings[id.value].isBooked
    ensures !g.Next? ==> g == Deny(AlreadyBooked, ToListing(id.value))
  {
    if id.Some? && id.value in store.listings && store.listings[id.value].isBooked then
      Deny(AlreadyBooked, ToListing(id.value))
    else Next
  }

  // ---------------------------------------------------------------------
  // Body validation

  /** The details Joi reports with its default `abortEarly: true`: the
      first violation only. */
  function Reported(vs: seq<Violation>): (ds: seq<Violation>)
    ensures |ds| == if |vs| == 0 then 0 else 1
    ensures |ds| == 1 ==> ds[0] == vs[0]
  {
    if |vs| == 0 then [] else [vs[0]]
  }

  function Messages(ds: seq<Violation>, render: Violation -> string): (ms: seq<string>)
    ensures |ms| == |ds|
    ensures forall k :: 0 <= k < |ds| ==> ms[k] == render(ds[k])
  {
    if |ds| == 0 then [] else [render(ds[0])] + Messages(ds[1..], render)
  }

  /** `validateListing` on the bodies `ListingBody` represents: a body that
      `listingSchema` rejects becomes a 400 error whose message is the
      reported details' messages joined by ","; `render` stands for Joi's
      own message text. */
  function ValidateListing(body: Option<ListingBody>, render: Violation -> string): (g: Gate)
    ensures g.Next? <==> body.Some? && ValidListingBody(body.value)
    ensures !g.Next? ==> g == Throw(400, render(ListingViolations(body)[0]))
  {
    var vs := ListingViolations(body);
    if |vs| == 0 then Next
    else Throw(400, Join(Messages(Reported(vs), render), ","))
  }

  /** `validateReview`, the same for `reviewSchema`. */
  function ValidateReview(body: Option<ReviewBody>, render: Violation -> string): (g: Gate)
    ensures g.Next? <==> body.Some? && ValidReviewBody(body.value)
    ensures !g.Next? ==> g == Throw(400, render(ReviewViolations(body)[0]))
  {
    var vs := ReviewViolations(body);
    if |vs| == 0 then Next
    else Throw(400, Join(Messages(Reported(vs), render), ","))
  }

  /** A missing listing body is reported as the one required `listing`
      key, whatever else the request holds. */
  lemma MissingListingBodyNamesListing(render: Violation -> string)
    ensures ValidateListing(None, render) == Throw(400, render(Violation("listing", Required)))
  {
  }

  // ---------------------------------------------------------------------
  // Login redirect

  /** `savedRedirectUrl`: the locals' `redirectUrl` after the step, given
      the session's saved URL and the locals' value before it. A falsy
      session value (absent or "") leaves the locals alone. */
  function SavedRedirectUrl(session: Option<string>, locals: Option<string>): (r: Option<string>)
    ensures Truthy(session) ==> r == session
    ensures !Truthy(session) ==> r == locals
  {
    if Truthy(session) then session else locals
  }
}

=== FILE: migrate.dfy ===
/** The one-off script migrateCategories.js: every listing stored without a
    category gets "Trending". The listings are visited in store order and
    saved one by one inside a single `try`, so the first save the database
    refuses ends the run, with the earlier listings already migrated and
    the later ones untouched. */
module Migrate {
  import opened Common
  import opened Schema
  import opened Listings

  /** A listing as the script leaves it: selected (no category) listings
      get the default, all others are not touched. */
  function Migrated(l: Listing): (m: Listing)
    ensures m.category.Some?
    ensures l.category.Some? ==> m == l
    ensures l.category.None? ==> m == l.(category := Some(DefaultCategory))
  {
    if l.category.None? then l.(category := Some(DefaultCategory)) else l
  }

  /** A selected listing whose migrated document the database refuses. */
  predicate SaveFails(l: Listing)
  {
    l.category.None? && !SavesCleanly(Migrated(l))
  }

  /** `migrateCategories`: `completed` is false when a save failed. */
  method MigrateCategories(listings: seq<Listing>) returns (result: seq<Listing>, completed: bool)
    ensures |result| == |listings|
    ensures completed <==> forall i :: 0 <= i < |listings| ==> !SaveFails(listings[i])
    ensures forall i :: 0 <= i < FirstWhere(listings, SaveFails, 0) ==> result[i] == Migrated(listings[i])
    ensures forall i :: FirstWhere(listings, SaveFails, 0) <= i < |listings| ==> result[i] == listings[i]
    ensures completed ==> forall i :: 0 <= i < |result| ==> result[i].category.Some?
    ensures (forall i :: 0 <= i < |listings| ==> listings[i].category.Some?) ==> result == listings && completed
  {
    result := listings;
    var i := 0;
    while i < |listings|
      invariant 0 <= i <= |listings|
      invariant |result| == |listings|
      invariant forall k :: 0 <= k < i ==> !SaveFails(listings[k])
      invariant forall k :: 0 <= k < i ==> result[k] == Migrated(listings[k])
      invariant forall k :: i <= k < |listings| ==> result[k] == listings[k]
    {
      if listings[i].category.None? {
        if SaveFails(listings[i]) {
          return result, false;
        }
        result := result[i := Migrated(listings[i])];
      }
      i := i + 1;
    }
    completed := true;
  }

  /** Migrating a migrated listing changes nothing, so a second run after a
      completed one selects no listing. */
  lemma MigratedIsFixedPoint(l: Listing)
    ensures Migrated(Migrated(l)) == Migrated(l)
  {
  }
}

=== FILE: reviews.dfy ===
/** The review handlers of controllers/reviews.js over a store of listing
    documents and review documents: `createReview` appends a reference to
    the listing, `destroyReview` pulls it out again and deletes the review. */
module Reviews {
  import opened Common
  import opened Schema
  import opened Listings

  datatype Review = Review(comment: string, rating: real, author: UserId)

  datatype Store = Store(listings: map<ListingId, Listing>, reviews: map<ReviewId, Review>)

  datatype Outcome = Outcome(reply: Reply, store: Store)

  // ---------------------------------------------------------------------
  // Reference-list operations

  /** `$pull: { reviews: id }`: every occurrence of `id` goes, everything
      else stays. */
  function Pull(refs: seq<ReviewId>, id: ReviewId): (r: seq<ReviewId>)
    ensures id !in r
    ensures forall x :: x != id ==> multiset(r)[x] == multiset(refs)[x]
  {
    var r := Filter<ReviewId>(refs, (x: ReviewId) => x != id);
    assert multiset(r)[id] == 0;
    r
  }

  /** The references that survive a pull keep their relative order: pulling
      from a concatenation pulls from each part. */
  lemma PullKeepsOrder(a: seq<ReviewId>, b: seq<ReviewId>, id: ReviewId)
    ensures Pull(a + b, id) == Pull(a, id) + Pull(b, id)
  {
    FilterAppend<ReviewId>(a, b, (x: ReviewId) => x != id);
  }

  /** Pulling an id that is not referenced leaves the list as it was. */
  lemma PullAbsent(refs: seq<ReviewId>, id: ReviewId)
    requires id !in refs
    ensures Pull(refs, id) == refs
  {
    FilterAllPass<ReviewId>(refs, (x: ReviewId) => x != id);
  }

  /** Pulling twice is pulling once. */
  lemma PullIdempotent(refs: seq<ReviewId>, id: ReviewId)
    ensures Pull(Pull(refs, id), id) == Pull(refs, id)
  {
    PullAbsent(Pull(refs, id), id);
  }

  /** Appending a reference and pulling it again gives back the original
      list when it did not hold that id before. */
  lemma PullUndoesAppend(refs: seq<ReviewId>, id: ReviewId)
    requires id !in refs
    ensures Pull(refs + [id], id) == refs
  {
    PullKeepsOrder(refs, [id], id);
    PullAbsent(refs, id);
  }

  // ---------------------------------------------------------------------
  // Handlers

  /** `createReview`: the review (already validated by `validateReview`)
      is stamped with the current user as author, its id is pushed onto the
      end of the listing's references, and the listing is saved before the
      review. A malformed `:id` makes `Listing.findById` reject with a cast
      error, and a missing listing makes `listing.reviews` throw; both reach
      the error page. The listing is saved as loaded, with its schema
      defaults, and a listing the schema refuses makes that first save
      reject, so the review is not stored either. `newId` is the id the
      database gives the new review. */
  function CreateReview(s: Store, listingId: IdParam, body: ReviewBody, user: UserId, newId: ReviewId): (o: Outcome)
    requires ValidReviewBody(body)
    requires newId !in s.reviews
    ensures !Accepts(s, listingId) ==> o == Outcome(ErrorPage(500), s)
    ensures o.store != s <==> Accepts(s, listingId)
    ensures Accepts(s, listingId) ==>
      var l := listingId.id;
      && o.reply == Redirected(Success("New Review Added Successfully"), ToListing(l))
      && o.store.reviews.Keys == s.reviews.Keys + {newId}
      && o.store.reviews[newId] == Review(body.comment.value, body.rating.value, user)
      && (forall k :: k in s.reviews ==> o.store.reviews[k] == s.reviews[k])
      && o.store.listings.Keys == s.listings.Keys
      && o.store.listings[l].reviews == s.listings[l].reviews + [newId]
      && o.store.listings[l] == WithDefaults(s.listings[l]).(reviews := o.store.listings[l].reviews)
      && SavesCleanly(o.store.listings[l])
      && (forall k :: k in s.listings && k != l ==> o.store.listings[k] == s.listings[k])
  {
    if !Accepts(s, listingId) then Outcome(ErrorPage(500), s)
    else
      var l := listingId.id;
      var listing := WithDefaults(s.listings[l]);
      var review := Review(body.comment.value, body.rating.value, user);
      Outcome(Redirected(Success("New Review Added Successfully"), ToListing(l)),
              Store(s.listings[l := listing.(reviews := listing.reviews + [newId])],
                    s.reviews[newId := review]))
  }

  /** The listing `createReview` can save a review under: a well-formed id
      naming a stored listing that the schema accepts once its defaults are
      filled in. */
  predicate Accepts(s: Store, listingId: IdParam)
  {
    listingId.Wellformed? && listingId.id in s.listings && SavesCleanly(WithDefaults(s.listings[listingId.id]))
  }

  /** A review posted under a listing stored without a category saves the
      listing as "Trending"; under a listing with an empty title it is
      refused. */
  lemma ReviewSavesDefaultCategory(s: Store, l: ListingId, body: ReviewBody, user: UserId, newId: ReviewId)
    requires ValidReviewBody(body) && newId !in s.reviews
    requires l in s.listings && s.listings[l].category.None?
    ensures s.listings[l].title != "" ==>
      CreateReview(s, Wellformed(l), body, user, newId).store.listings[l].category == Some(DefaultCategory)
    ensures s.listings[l].title == "" ==> CreateReview(s, Wellformed(l), body, user, newId).store == s
  {
  }

  /** `destroyReview` given the review id: pull the id from the listing's
      references (a missing listing is left alone), delete the review, and
      report success either way. A malformed `:id` makes the update reject
      with a cast error before the review is deleted, which reaches the
      error page. */
  function DestroyReview(s: Store, listingId: IdParam, reviewId: ReviewId): (o: Outcome)
    ensures listingId.Malformed? ==> o == Outcome(ErrorPage(500), s)
    ensures listingId.Wellformed? ==>
      var l := listingId.id;
      && o.reply == Redirected(Success("Review Deleted Successfully"), ToListing(l))
      && o.store.reviews.Keys == s.reviews.Keys - {reviewId}
      && (forall k :: k in o.store.reviews ==> o.store.reviews[k] == s.reviews[k])
      && o.store.listings.Keys == s.listings.Keys
      && (l in s.listings ==>
           && reviewId !in o.store.listings[l].reviews
           && o.store.listings[l] == s.listings[l].(reviews := o.store.listings[l].reviews)
           && forall x :: x != reviewId ==>
                multiset(o.store.listings[l].reviews)[x] == multiset(s.listings[l].reviews)[x])
      && (forall k :: k in s.listings && k != l ==> o.store.listings[k] == s.listings[k])
  {
    match listingId
    case Malformed => Outcome(ErrorPage(500), s)
    case Wellformed(l) =>
      var listings :=
        if l in s.listings then s.listings[l := s.listings[l].(reviews := Pull(s.listings[l].reviews, reviewId))]
        else s.listings;
      Outcome(Redirected(Success("Review Deleted Successfully"), ToListing(l)),
              Store(listings, s.reviews - {reviewId}))
  }

  /** Deleting a review that was just added restores the review documents
      and the listing's references; the only trace left is the default
      category the listing was saved with. */
  lemma DestroyUndoesCreate(s: Store, listingId: ListingId, body: ReviewBody, user: UserId, newId: ReviewId)
    requires ValidReviewBody(body) && newId !in s.reviews
    requires listingId in s.listings && newId !in s.listings[listingId].reviews
    ensures var s2 := DestroyReview(CreateReview(s, Wellformed(listingId), body, user, newId).store,
                                    Wellformed(listingId), newId).store;
            && s2.reviews == s.reviews
            && s2.listings == if Accepts(s, Wellformed(listingId))
                              then s.listings[listingId := WithDefaults(s.listings[listingId])]
                              else s.listings
    ensures s.listings[listingId].category.Some? ==>
      DestroyReview(CreateReview(s, Wellformed(listingId), body, user, newId).store, Wellformed(listingId), newId).store == s
  {
    if Accepts(s, Wellformed(listingId)) {
      DestroyUndoesAcceptedCreate(s, listingId, body, user, newId);
    } else {
      DestroyAfterRefusedCreate(s, listingId, body, user, newId);
    }
    if s.listings[listingId].category.Some? {
      assert WithDefaults(s.listings[listingId]) == s.listings[listingId];
    }
  }

  lemma DestroyUndoesAcceptedCreate(s: Store, listingId: ListingId, body: ReviewBody, user: UserId, newId: ReviewId)
    requires ValidReviewBody(body) && newId !in s.reviews
    requires Accepts(s, Wellformed(listingId)) && newId !in s.listings[listingId].reviews
    ensures DestroyReview(CreateReview(s, Wellformed(listingId), body, user, newId).store, Wellformed(listingId), newId).store
            == Store(s.listings[listingId := WithDefaults(s.listings[listingId])], s.reviews)
  {
    var refs := s.listings[listingId].reviews;
    var loaded := WithDefaults(s.listings[listingId]);
    var s1 := CreateReview(s, Wellformed(listingId), body, user, newId).store;
    assert s1.listings == s.listings[listingId := loaded.(reviews := refs + [newId])];
    PullUndoesAppend(refs, newId);
    assert loaded.(reviews := refs) == loaded;
    assert s1.reviews - {newId} == s.reviews;
  }

  lemma DestroyAfterRefusedCreate(s: Store, listingId: ListingId, body: ReviewBody, user: UserId, newId: ReviewId)
    requires ValidReviewBody(body) && newId !in s.reviews
    requires !Accepts(s, Wellformed(listingId))
    requires listingId in s.listings && newId !in s.listings[listingId].reviews
    ensures DestroyReview(CreateReview(s, Wellformed(listingId), body, user, newId).store, Wellformed(listingId), newId).store == s
  {
    var refs := s.listings[listingId].reviews;
    PullAbsent(refs, newId);
    assert s.listings[listingId].(reviews := refs) == s.listings[listingId];
    assert s.reviews - {newId} == s.reviews;
  }

  // ---------------------------------------------------------------------
  // The parameter-name mismatch

  /** Route parameters by name. The review route is declared as
      `/:reviewId` under `/listings/:id/reviews`, so it carries "id" and
      "reviewId". */
  function RouteParams(listingId: ListingId, reviewId: ReviewId): map<string, nat>
  {
    map["id" := listingId, "reviewId" := reviewId]
  }

  /** The listing references after `destroyReview` as routed: it reads the
      parameter "reviewID", which the route does not define, so it pulls
      `undefined`, which no reference equals. What deleting the review by an
      undefined id does is left to the database library and not modelled. */
  function DestroyReviewAsRouted(listings: map<ListingId, Listing>, params: map<string, nat>): (m: map<ListingId, Listing>)
    ensures "reviewID" !in params ==> m == listings
  {
    if "id" in params && params["id"] in listings && "reviewID" in params then
      var l := params["id"];
      listings[l := listings[l].(reviews := Pull(listings[l].reviews, params["reviewID"]))]
    else listings
  }

  /** Deleting a review through the route leaves the listing still
      referring to it, while the intended handler removes the reference. */
  lemma RoutedDeleteKeepsReference(s: Store, listingId: ListingId, reviewId: ReviewId)
    requires listingId in s.listings && reviewId in s.listings[listingId].reviews
    ensures reviewId in DestroyReviewAsRouted(s.listings, RouteParams(listingId, reviewId))[listingId].reviews
    ensures reviewId !in DestroyReview(s, Wellformed(listingId), reviewId).store.listings[listingId].reviews
  {
    assert "reviewID" !in RouteParams(listingId, reviewId);
  }
}

=== FILE: routes.dfy ===
/** The route wiring of routes/bookings.js, routes/listing.js and the
    review routes: each route runs its guards in the order it lists them,
    and the first guard that does not call `next()` answers the request
    with the store unchanged; only when every guard passes does the
    handler run. */
module Routes {
  import opened Common
  import opened Schema
  import opened Middleware
  import Bookings
  import BookingQueries
  import Listings
  import Reviews

  /** A guard's refusal as the answer of a booking route. Only `Deny`
      arises on these routes; the other cases are kept total. */
  function BookingDenial(g: Gate): Reply
  {
    match g
    case Deny(msg, to) => Redirected(Error(msg), to)
    case Throw(status, _) => ErrorPage(status)
    case _ => ErrorPage(500)
  }

  // ---------------------------------------------------------------------
  // routes/bookings.js

  /** `POST /bookings`: `isLoggedIn`, then `checkListingAvailability`,
      then `createBooking` on the submitted form. The route path has no
      `:id`, so the availability guard looks up `req.params.id`, which is
      absent. */
  function PostBooking(s: Bookings.Store, authenticated: bool, user: UserId, f: Bookings.Form): (o: Bookings.Outcome)
    ensures !authenticated ==> o == Bookings.Outcome(Redirected(Error(SignInFirst), ToPath("/login")), s)
    ensures authenticated ==> o == Bookings.SubmitBooking(s, user, f)
  {
    var login := IsLoggedIn(authenticated);
    if !login.Next? then Bookings.Outcome(BookingDenial(login), s)
    else
      var available := CheckListingAvailability(s, None);
      if !available.Next? then Bookings.Outcome(BookingDenial(available), s)
      else Bookings.SubmitBooking(s, user, f)
  }

  /** The availability guard adds nothing to `createBooking`: with no id
      it always passes, and even given the requested listing's id it
      refuses exactly the requests the controller refuses first, with the
      same message and redirect. */
  lemma AvailabilityGuardAddsNothing(s: Bookings.Store, user: UserId, r: Bookings.Request)
    ensures CheckListingAvailability(s, None) == Next
    ensures var g := CheckListingAvailability(s, Some(r.listing));
            (if g.Next? then Bookings.CreateBooking(s, user, r) else Bookings.Outcome(BookingDenial(g), s))
            == Bookings.CreateBooking(s, user, r)
  {
  }

  /** Under the booking routes, no two bookings of a listing overlap: a
      guarded request keeps the invariant whatever the guards decide. */
  lemma PostBookingPreservesNoOverlap(s: Bookings.Store, authenticated: bool, user: UserId, f: Bookings.Form)
    requires Bookings.NoOverlap(s)
    ensures Bookings.NoOverlap(PostBooking(s, authenticated, user, f).store)
  {
    if authenticated {
      Bookings.SubmitBookingPreservesNoOverlap(s, user, f);
    }
  }

  /** `GET /bookings/:id` and `GET /bookings/:id/download`: both behind
      `isLoggedIn`. */
  function ShowBookingRoute(s: Bookings.Store, authenticated: bool, id: IdParam, user: UserId): (r: BookingQueries.ViewReply)
    ensures !authenticated ==> r == BookingQueries.Refused(Error(SignInFirst), ToPath("/login"))
    ensures r.Shown? <==> authenticated && BookingQueries.ShowBooking(s, id, user).Shown?
    ensures r.Shown? ==> r.booking.user == user
  {
    var login := IsLoggedIn(authenticated);
    if !login.Next? then BookingQueries.Refused(Error(login.flash), login.to)
    else BookingQueries.ShowBooking(s, id, user)
  }

  function DownloadRoute(s: Bookings.Store, authenticated: bool, id: IdParam, user: UserId): (r: BookingQueries.ViewReply)
    ensures !authenticated ==> r == BookingQueries.Refused(Error(SignInFirst), ToPath("/login"))
    ensures r.Shown? <==> authenticated && BookingQueries.DownloadInvoice(s, id, user).Shown?
    ensures r.Shown? ==> r.booking.user == user
  {
    var login := IsLoggedIn(authenticated);
    if !login.Next? then BookingQueries.Refused(Error(login.flash), login.to)
    else BookingQueries.DownloadInvoice(s, id, user)
  }

  /** `GET /bookings/my-bookings`: behind `isLoggedIn`, the user's
      bookings, latest check-in first. */
  function MyBookingsRoute(s: Bookings.Store, authenticated: bool, user: UserId): (r: Option<seq<Bookings.Booking>>)
    ensures r.None? <==> !authenticated
    ensures r.Some? ==> BookingQueries.SortedByCheckInDesc(r.value)
    ensures r.Some? ==> forall b :: b in r.value <==> b in s.bookings && b.user == user
    ensures r.Some? ==> forall b :: multiset(r.value)[b] == if b.user == user then multiset(s.bookings)[b] else 0
  {
    if !IsLoggedIn(authenticated).Next? then None else Some(BookingQueries.MyBookings(s, user))
  }

  // ---------------------------------------------------------------------
  // routes/listing.js

  /** The answer of a listing route: a guard's verdict, or the handler's
      outcome. */
  datatype Answer = Stopped(gate: Gate) | Handled(outcome: Listings.Outcome)

  datatype ListingResult = ListingResult(answer: Answer, store: map<ListingId, Listings.Listing>)

  /** `POST /listings`: `isLoggedIn`, then `validateListing`, then
      `createListing`; a saved listing is stored under the id the database
      gives it. */
  function CreateListingRoute(store: map<ListingId, Listings.Listing>, authenticated: bool, user: UserId,
                              body: Option<ListingBody>, file: Option<Listings.Upload>, geo: Listings.Geocode,
                              newId: ListingId, render: Violation -> string): (r: ListingResult)
    requires newId !in store
    ensures !authenticated ==> r == ListingResult(Stopped(IsLoggedIn(false)), store)
    ensures authenticated && !(body.Some? && ValidListingBody(body.value)) ==>
      r.answer.Stopped? && r.answer.gate.Throw? && r.answer.gate.status == 400 && r.store == store
    ensures r.store != store <==>
      authenticated && body.Some? && ValidListingBody(body.value) && geo.Features?
    ensures authenticated && body.Some? && ValidListingBody(body.value) ==>
      r.answer == Handled(Listings.CreateListing(body, file, geo, user))
    ensures r.store != store ==>
      && r.answer.Handled? && r.answer.outcome.Saved?
      && r.store == store[newId := r.answer.outcome.listing]
      && r.store.Keys == store.Keys + {newId}
      && r.store[newId].owner == Some(user)
      && (forall k :: k in store ==> r.store[k] == store[k])
  {
    var login := IsLoggedIn(authenticated);
    if !login.Next? then ListingResult(Stopped(login), store)
    else
      var valid := ValidateListing(body, render);
      if !valid.Next? then ListingResult(Stopped(valid), store)
      else
        var o := Listings.CreateListing(body, file, geo, user);
        ListingResult(Handled(o), if o.Saved? then store[newId := o.listing] else store)
  }

  /** `PUT /listings/:id`: `isLoggedIn`, then `isOwner`, then
      `validateListing`, then `updateListing`. */
  function UpdateListingRoute(store: map<ListingId, Listings.Listing>, authenticated: bool, user: Option<UserId>,
                              id: IdParam, body: Option<ListingBody>, file: Option<Listings.Upload>,
                              geo: Listings.Geocode, render: Violation -> string): (r: ListingResult)
    ensures !authenticated ==> r == ListingResult(Stopped(IsLoggedIn(false)), store)
    ensures authenticated && !IsOwner(store, id, user).Next? ==> r == ListingResult(Stopped(IsOwner(store, id, user)), store)
    ensures authenticated && IsOwner(store, id, user).Next? && !(body.Some? && ValidListingBody(body.value)) ==>
      r.answer.Stopped? && r.answer.gate.Throw? && r.answer.gate.status == 400 && r.store == store
    ensures authenticated && IsOwner(store, id, user).Next? && body.Some? && ValidListingBody(body.value) ==>
      && r.answer == Handled(Listings.UpdateListing(store, id.id, body.value, file, geo))
      && (r.answer.outcome.Saved? ==> r.store == store[id.id := r.answer.outcome.listing])
      && (!r.answer.outcome.Saved? ==> r.store == store)
    ensures r.store != store ==> authenticated && IsOwner(store, id, user).Next? && body.Some? && ValidListingBody(body.value)
    ensures r.store.Keys == store.Keys
  {
    var login := IsLoggedIn(authenticated);
    if !login.Next? then ListingResult(Stopped(login), store)
    else
      var owner := IsOwner(store, id, user);
      if !owner.Next? then ListingResult(Stopped(owner), store)
      else
        var valid := ValidateListing(body, render);
        if !valid.Next? then ListingResult(Stopped(valid), store)
        else
          var o := Listings.UpdateListing(store, id.id, body.value, file, geo);
          ListingResult(Handled(o), if o.Saved? then store[id.id := o.listing] else store)
  }

  /** `DELETE /listings/:id`: `isLoggedIn`, then `isOwner`, then
      `destroyListing`. */
  function DeleteListingRoute(store: map<ListingId, Listings.Listing>, authenticated: bool, user: Option<UserId>,
                              id: IdParam): (r: map<ListingId, Listings.Listing>)
    ensures r != store <==> authenticated && IsOwner(store, id, user).Next?
    ensures r != store ==> id.Wellformed? && r == Listings.DestroyListing(store, id.id)
  {
    if !IsLoggedIn(authenticated).Next? || !IsOwner(store, id, user).Next? then store
    else Listings.DestroyListing(store, id.id)
  }

  /** Only the signed-in owner of a listing can change or remove it. */
  lemma OnlyOwnerChangesListing(store: map<ListingId, Listings.Listing>, authenticated: bool, user: Option<UserId>,
                                id: IdParam, body: Option<ListingBody>, file: Option<Listings.Upload>,
                                geo: Listings.Geocode, render: Violation -> string)
    requires !authenticated || user.None? || id.Malformed? || id.id !in store || store[id.id].owner != user
    ensures UpdateListingRoute(store, authenticated, user, id, body, file, geo, render).store == store
    ensures DeleteListingRoute(store, authenticated, user, id) == store
  {
  }

  /** `POST /listings/:id/bookings`: behind `isLoggedIn` only, then the
      unchecked booking creation. */
  function LegacyBookingRoute(s: Bookings.Store, authenticated: bool, user: UserId, id: IdParam,
                              booking: Option<Bookings.Stay>): (o: Bookings.Outcome)
    ensures !authenticated ==> o == Bookings.Outcome(Redirected(Error(SignInFirst), ToPath("/login")), s)
    ensures authenticated ==> o == Bookings.SubmitLegacyBooking(s, user, id, booking)
  {
    var login := IsLoggedIn(authenticated);
    if !login.Next? then Bookings.Outcome(BookingDenial(login), s)
    else Bookings.SubmitLegacyBooking(s, user, id, booking)
  }

  /** Of the two booking routes only the older one can double-book a
      listing. */
  lemma OnlyLegacyRouteDoubleBooks()
    ensures var s := Bookings.Store(map[0 := Bookings.ListingState(100, true, [0])],
                                    [Bookings.Booking(0, 1, 0, Bookings.MsPerDay, 1, 100)]);
            var f := Bookings.Form(Some(Wellformed(0)), 0, Bookings.MsPerDay, 1);
            && Bookings.NoOverlap(s)
            && Bookings.NoOverlap(PostBooking(s, true, 2, f).store)
            && !Bookings.NoOverlap(LegacyBookingRoute(s, true, 2, Wellformed(0), Some(Bookings.Stay(0, Bookings.MsPerDay, 1))).store)
  {
    Bookings.LegacyBreaksNoOverlap();
  }

  // ---------------------------------------------------------------------
  // Review routes

  /** `POST /listings/:id/reviews`: `isLoggedIn`, then `validateReview`,
      then `createReview`. */
  function PostReviewRoute(s: Reviews.Store, authenticated: bool, user: UserId, listingId: IdParam,
                           body: Option<ReviewBody>, newId: ReviewId, render: Violation -> string): (o: Reviews.Outcome)
    requires newId !in s.reviews
    ensures !authenticated ==> o == Reviews.Outcome(Redirected(Error(SignInFirst), ToPath("/login")), s)
    ensures authenticated && !(body.Some? && ValidReviewBody(body.value)) ==> o.reply == ErrorPage(400) && o.store == s
    ensures authenticated && body.Some? && ValidReviewBody(body.value) ==>
      o == Reviews.CreateReview(s, listingId, body.value, user, newId)
    ensures o.store != s ==>
      && authenticated && body.Some? && ValidReviewBody(body.value) && Reviews.Accepts(s, listingId)
      && newId in o.store.reviews && o.store.reviews[newId].author == user
  {
    var login := IsLoggedIn(authenticated);
    if !login.Next? then Reviews.Outcome(Redirected(Error(login.flash), login.to), s)
    else
      var valid := ValidateReview(body, render);
      if !valid.Next? then Reviews.Outcome(ErrorPage(valid.status), s)
      else Reviews.CreateReview(s, listingId, body.value, user, newId)
  }

  /** The answer of the review deletion route: the guard that stopped it,
      or `Next` when the handler ran; and the listings afterwards. */
  datatype Deletion = Deletion(gate: Gate, listings: map<ListingId, Listings.Listing>)

  /** `DELETE /listings/:id/reviews/:reviewId`: `isLoggedIn`, then
      `isReviewAuthor`, then `destroyReview`, which reads the parameters by
      name. The listings after the request are given; what the handler
      does to the review documents with an undefined id is not modelled. */
  function DeleteReviewRoute(s: Reviews.Store, authenticated: bool, user: Option<UserId>, listingId: ListingId,
                             reviewId: IdParam): (d: Deletion)
    ensures !authenticated ==> d.gate == Deny(SignInFirst, ToPath("/login"))
    ensures authenticated ==> d.gate == IsReviewAuthor(s.reviews, listingId, reviewId, user)
    ensures d.gate.Next? <==>
      authenticated && reviewId.Wellformed? && reviewId.id in s.reviews && user == Some(s.reviews[reviewId.id].author)
    ensures d.listings == s.listings
  {
    var login := IsLoggedIn(authenticated);
    if !login.Next? then Deletion(login, s.listings)
    else
      var author := IsReviewAuthor(s.reviews, listingId, reviewId, user);
      if !author.Next? then Deletion(author, s.listings)
      else Deletion(Next, Reviews.DestroyReviewAsRouted(s.listings, Reviews.RouteParams(listingId, reviewId.id)))
  }
}

=== FILE: schema.dfy ===
/** The request-body validators of schema.js: `listingSchema`,
    `reviewSchema` and `userSchema`, each as a list of violations, with an
    independent predicate saying when a body is valid.

    Request fields are optional values: `None` when the field is absent.
    Joi strings reject the empty string unless it is allowed, so a present
    but empty text field is a violation of its own. */
module Schema {
  import opened Common

  /** The eleven category labels, in the order schema.js, models/listing.js
      and the category filter all list them. */
  const Categories: seq<string> := [
    "Trending", "Rooms", "Iconic cities", "Mountains", "Castles",
    "Amazing Pools", "Camping", "Farms", "Arctic", "Boats", "Domes"]

  const DefaultCategory: string := "Trending"

  predicate IsCategory(c: string)
  {
    c in Categories
  }

  lemma CategoriesAreElevenDistinctLabels()
    ensures |Categories| == 11
    ensures forall i, j :: 0 <= i < j < |Categories| ==> Categories[i] != Categories[j]
    ensures IsCategory(DefaultCategory)
  {
  }

  /** Which rule of a field's schema failed. The text Joi renders for each
      is library behaviour and is not part of this model. */
  datatype Rule = Required | Empty | BelowMin | AboveMax | NotAllowed

  datatype Violation = Violation(path: string, rule: Rule)

  /** A required Joi string: absent, empty, or accepted. */
  function TextViolations(path: string, v: Option<string>): (vs: seq<Violation>)
    ensures |vs| == 0 <==> Truthy(v)
    ensures |vs| <= 1
    ensures forall k :: 0 <= k < |vs| ==> vs[k].path == path
  {
    match v
    case None => [Violation(path, Required)]
    case Some(s) => if s == "" then [Violation(path, Empty)] else []
  }

  // ---------------------------------------------------------------------
  // listingSchema

  /** The `listing` object of a listing form, for bodies whose keys are
      the schema's own and whose image, when sent, is an object of texts.
      Such an image allows any text, empty and null included, so it never
      fails and is left out. Joi also refuses a key outside the schema and
      an image sent as plain text; bodies like those are not represented. */
  datatype ListingBody = ListingBody(
    title: Option<string>,
    description: Option<string>,
    location: Option<string>,
    country: Option<string>,
    price: Option<int>,
    category: Option<string>)

  /** What `listingSchema` accepts among the bodies represented here. */
  predicate ValidListingBody(b: ListingBody)
  {
    && Truthy(b.title) && Truthy(b.description) && Truthy(b.location) && Truthy(b.country)
    && b.price.Some? && b.price.value >= 0
    && b.category.Some? && IsCategory(b.category.value)
  }

  /** Every violation of `listingSchema`, in the order of the schema's keys:
      the first one, which is the one reported, belongs to the first key
      that breaks its rule. */
  function ListingViolations(body: Option<ListingBody>): (vs: seq<Violation>)
    ensures |vs| == 0 <==> body.Some? && ValidListingBody(body.value)
    ensures body.None? ==> vs == [Violation("listing", Required)]
    ensures body.Some? && !Truthy(body.value.title) ==> |vs| > 0 && vs[0].path == "title"
    ensures body.Some? && Truthy(body.value.title) && !Truthy(body.value.description) ==>
      |vs| > 0 && vs[0].path == "description"
    ensures body.Some? && Truthy(body.value.title) && Truthy(body.value.description)
            && !Truthy(body.value.location) ==>
      |vs| > 0 && vs[0].path == "location"
    ensures body.Some? && Truthy(body.value.title) && Truthy(body.value.description)
            && Truthy(body.value.location) && !Truthy(body.value.country) ==>
      |vs| > 0 && vs[0].path == "country"
    ensures body.Some? && Truthy(body.value.title) && Truthy(body.value.description)
            && Truthy(body.value.location) && Truthy(body.value.country)
            && !(body.value.price.Some? && body.value.price.value >= 0) ==>
      |vs| > 0 && vs[0].path == "price"
    ensures body.Some? && Truthy(body.value.title) && Truthy(body.value.description)
            && Truthy(body.value.location) && Truthy(body.value.country)
            && body.value.price.Some? && body.value.price.value >= 0 && !ValidListingBody(body.value) ==>
      vs == [Violation("category", if body.value.category.None? then Required else NotAllowed)]
  {
    match body
    case None => [Violation("listing", Required)]
    case Some(b) =>
      TextViolations("title", b.title)
      + TextViolations("description", b.description)
      + TextViolations("location", b.location)
      + TextViolations("country", b.country)
      + (match b.price
         case None => [Violation("price", Required)]
         case Some(p) => if p < 0 then [Violation("price", BelowMin)] else [])
      + (match b.category
         case None => [Violation("category", Required)]
         case Some(c) => if IsCategory(c) then [] else [Violation("category", NotAllowed)])
  }

  // ---------------------------------------------------------------------
  // reviewSchema

  /** The `review` object of a review form; the rating is any number. */
  datatype ReviewBody = ReviewBody(comment: Option<string>, rating: Option<real>)

  predicate ValidReviewBody(b: ReviewBody)
  {
    Truthy(b.comment) && b.rating.Some? && 1.0 <= b.rating.value <= 5.0
  }

  /** Every violation of `reviewSchema`, in the order of the schema's keys:
      the first one, which is the one reported, is the missing `review`
      object, else the comment's, else the rating's. */
  function ReviewViolations(body: Option<ReviewBody>): (vs: seq<Violation>)
    ensures |vs| == 0 <==> body.Some? && ValidReviewBody(body.value)
    ensures body.None? ==> vs == [Violation("review", Required)]
    ensures body.Some? && !Truthy(body.value.comment) ==>
      |vs| > 0 && vs[0] == Violation("comment", if body.value.comment.None? then Required else Empty)
    ensures body.Some? && Truthy(body.value.comment) && body.value.rating.None? ==>
      vs == [Violation("rating", Required)]
    ensures body.Some? && Truthy(body.value.comment) && body.value.rating.Some? && body.value.rating.value < 1.0 ==>
      vs == [Violation("rating", BelowMin)]
    ensures body.Some? && Truthy(body.value.comment) && body.value.rating.Some? && body.value.rating.value > 5.0 ==>
      vs == [Violation("rating", AboveMax)]
    ensures body.Some? && body.value.rating.Some? && body.value.rating.value > 5.0 ==>
      Violation("rating", AboveMax) in vs
    ensures body.Some? && body.value.rating.Some? && body.value.rating.value < 1.0 ==>
      Violation("rating", BelowMin) in vs
  {
    match body
    case None => [Violation("review", Required)]
    case Some(b) =>
      TextViolations("comment", b.comment)
      + (match b.rating
         case None => [Violation("rating", Required)]
         case Some(r) =>
           if r < 1.0 then [Violation("rating", BelowMin)]
           else if r > 5.0 then [Violation("rating", AboveMax)]
           else [])
  }

  /** A rating need not be a whole number. */
  lemma FractionalRatingAccepted()
    ensures ValidReviewBody(ReviewBody(Some("Cosy"), Some(4.5)))
  {
  }

  // ---------------------------------------------------------------------
  // userSchema

  predicate IsLower(c: char) { 'a' <= c <= 'z' }
  predicate IsUpper(c: char) { 'A' <= c <= 'Z' }
  predicate IsDigit(c: char) { '0' <= c <= '9' }

  /** The characters a regular-expression `.` does not match. */
  predicate IsLineTerminator(c: char)
  {
    c == '\n' || c == '\r' || c == '\U{2028}' || c == '\U{2029}'
  }

  /** `/^(?=.*[a-z])(?=.*[A-Z])(?=.*\d).*$/`: a lower-case letter, an
      upper-case letter and a digit somewhere, and, because `.` stops at a
      line break and there is no multi-line flag, no line break anywhere. */
  predicate MatchesPasswordPattern(p: string)
  {
    && (exists i :: 0 <= i < |p| && IsLower(p[i]))
    && (exists i :: 0 <= i < |p| && IsUpper(p[i]))
    && (exists i :: 0 <= i < |p| && IsDigit(p[i]))
    && (forall i :: 0 <= i < |p| ==> !IsLineTerminator(p[i]))
  }

  /** The pattern test as a single left-to-right scan of the password. */
  method ScanPassword(p: string) returns (matches: bool)
    ensures matches <==> MatchesPasswordPattern(p)
  {
    var lower, upper, digit := false, false, false;
    var i := 0;
    while i < |p|
      invariant 0 <= i <= |p|
      invariant lower <==> exists k :: 0 <= k < i && IsLower(p[k])
      invariant upper <==> exists k :: 0 <= k < i && IsUpper(p[k])
      invariant digit <==> exists k :: 0 <= k < i && IsDigit(p[k])
      invariant forall k :: 0 <= k < i ==> !IsLineTerminator(p[k])
    {
      if IsLineTerminator(p[i]) {
        return false;
      }
      lower := lower || IsLower(p[i]);
      upper := upper || IsUpper(p[i]);
      digit := digit || IsDigit(p[i]);
      i := i + 1;
    }
    matches := lower && upper && digit;
  }

  /** The length JavaScript reports for a string (`value.length`), which
      Joi's `min` and `max` compare: the number of UTF-16 code units, so a
      character beyond U+FFFF counts twice. */
  function Utf16Length(s: string): (n: nat)
    ensures |s| <= n <= 2 * |s|
    ensures n == 0 <==> s == ""
  {
    if |s| == 0 then 0 else (if s[0] as int > 0xFFFF then 2 else 1) + Utf16Length(s[1..])
  }

  /** Only characters beyond U+FFFF make the two lengths differ. */
  lemma {:induction false} Utf16LengthIsLengthIffBasic(s: string)
    ensures Utf16Length(s) == |s| <==> forall k :: 0 <= k < |s| ==> s[k] as int <= 0xFFFF
  {
    if |s| > 0 {
      Utf16LengthIsLengthIffBasic(s[1..]);
      assert forall k :: 1 <= k < |s| ==> s[1..][k - 1] == s[k];
      if s[0] as int <= 0xFFFF && !(forall k :: 0 <= k < |s| ==> s[k] as int <= 0xFFFF) {
        var k :| 0 <= k < |s| && s[k] as int > 0xFFFF;
        assert s[1..][k - 1] as int > 0xFFFF;
      }
    }
  }

  const UsernameRequired := "Username is required"
  const UsernameTooShort := "Username must be at least 3 characters long"
  const UsernameTooLong := "Username cannot exceed 30 characters"
  const EmailRequired := "Email is required"
  const EmailInvalid := "Please provide a valid email address"
  const PasswordRequired := "Password is required"
  const PasswordTooShort := "Password must be at least 8 characters long"
  const PasswordTooWeak := "Password must contain at least one uppercase letter, one lowercase letter, and one number"

  /** Joi's own message for an empty string, which `userSchema` does not
      override. */
  function EmptyMessage(key: string): string
  {
    "\"" + key + "\" is not allowed to be empty"
  }

  /** What `userSchema` accepts; `isEmail` stands for Joi's e-mail format
      check. */
  predicate ValidSignup(username: Option<string>, email: Option<string>, password: Option<string>,
                        isEmail: string -> bool)
  {
    && username.Some? && 3 <= Utf16Length(username.value) <= 30
    && Truthy(email) && isEmail(email.value)
    && password.Some? && Utf16Length(password.value) >= 8 && MatchesPasswordPattern(password.value)
  }

  function UsernameMessages(u: Option<string>): seq<string>
  {
    match u
    case None => [UsernameRequired]
    case Some(s) =>
      if s == "" then [EmptyMessage("username")]
      else if Utf16Length(s) < 3 then [UsernameTooShort]
      else if Utf16Length(s) > 30 then [UsernameTooLong]
      else []
  }

  function EmailMessages(e: Option<string>, isEmail: string -> bool): seq<string>
  {
    match e
    case None => [EmailRequired]
    case Some(s) =>
      if s == "" then [EmptyMessage("email")]
      else if isEmail(s) then []
      else [EmailInvalid]
  }

  /** A password can fail both its length rule and its pattern; with every
      error collected, both messages appear, length first. */
  function PasswordMessages(p: Option<string>): seq<string>
  {
    match p
    case None => [PasswordRequired]
    case Some(s) =>
      if s == "" then [EmptyMessage("password")]
      else (if Utf16Length(s) < 8 then [PasswordTooShort] else [])
           + (if MatchesPasswordPattern(s) then [] else [PasswordTooWeak])
  }

  /** Every message of `userSchema` with all errors collected
      (`abortEarly: false`), username first, then e-mail, then password. */
  function SignupMessages(username: Option<string>, email: Option<string>, password: Option<string>,
                          isEmail: string -> bool): (ms: seq<string>)
    ensures |ms| == 0 <==> ValidSignup(username, email, password, isEmail)
    ensures username.Some? && 0 < Utf16Length(username.value) < 3 ==> UsernameTooShort in ms
    ensures username.Some? && Utf16Length(username.value) > 30 ==> UsernameTooLong in ms
    ensures password.Some? && 0 < Utf16Length(password.value) < 8 ==> PasswordTooShort in ms
    ensures password.Some? && password.value != "" && !MatchesPasswordPattern(password.value) ==>
      PasswordTooWeak in ms
    ensures username.None? ==> UsernameRequired in ms
    ensures username == Some("") ==> EmptyMessage("username") in ms
    ensures email.None? ==> EmailRequired in ms
    ensures email == Some("") ==> EmptyMessage("email") in ms
    ensures email.Some? && email.value != "" && !isEmail(email.value) ==> EmailInvalid in ms
    ensures password.None? ==> PasswordRequired in ms
    ensures password == Some("") ==> EmptyMessage("password") in ms
  {
    UsernameMessages(username) + EmailMessages(email, isEmail) + PasswordMessages(password)
  }

  /** A "required" message appears only for a field that is missing: no
      other rule's message has the same text. */
  lemma RequiredOnlyWhenMissing(username: Option<string>, email: Option<string>, password: Option<string>,
                                isEmail: string -> bool)
    ensures UsernameRequired in SignupMessages(username, email, password, isEmail) ==> username.None?
    ensures EmailRequired in SignupMessages(username, email, password, isEmail) ==> email.None?
    ensures PasswordRequired in SignupMessages(username, email, password, isEmail) ==> password.None?
  {
    var u := UsernameMessages(username);
    var e := EmailMessages(email, isEmail);
    var p := PasswordMessages(password);
    assert UsernameRequired[9] == 'i' && UsernameTooShort[9] == 'm' && UsernameTooLong[9] == 'c';
    assert EmailRequired[0] == 'E' && EmailInvalid[0] == 'P' && PasswordRequired[1] == 'a' && EmailInvalid[1] == 'l';
    assert PasswordRequired[9] == 'i';
    assert PasswordTooShort[9] == 'm';
    assert |PasswordTooWeak| != |PasswordRequired|;
    assert forall k :: EmptyMessage(k)[0] == '"';
    assert UsernameRequired !in e + p;
    assert EmailRequired !in u + p;
    assert PasswordRequired !in u + e;
  }

  /** The texts of `userSchema`'s messages tell them apart: by length, by
      their first character, and for the two empty-field messages of
      eight-letter keys by their second. */
  lemma MessageTexts()
    ensures |UsernameRequired| == 20 && |UsernameTooShort| == 43 && |UsernameTooLong| == 36
    ensures |EmailRequired| == 17 && |EmailInvalid| == 36
    ensures |PasswordRequired| == 20 && |PasswordTooShort| == 43 && |PasswordTooWeak| == 89
    ensures UsernameRequired[0] == 'U' && UsernameTooShort[0] == 'U' && UsernameTooLong[0] == 'U'
    ensures EmailRequired[0] == 'E' && EmailInvalid[0] == 'P'
    ensures PasswordRequired[0] == 'P' && PasswordTooShort[0] == 'P'
    ensures forall k :: EmptyMessage(k)[0] == '"' && |EmptyMessage(k)| == |k| + 29
    ensures EmptyMessage("username")[1] == 'u' && EmptyMessage("password")[1] == 'p'
  {
  }

  /** A username message appears only when the username breaks that rule. */
  lemma UsernameMessageOnlyWhenBroken(username: Option<string>, email: Option<string>, password: Option<string>,
                                      isEmail: string -> bool)
    ensures UsernameTooShort in SignupMessages(username, email, password, isEmail) ==>
      username.Some? && 0 < Utf16Length(username.value) < 3
    ensures UsernameTooLong in SignupMessages(username, email, password, isEmail) ==>
      username.Some? && Utf16Length(username.value) > 30
    ensures EmptyMessage("username") in SignupMessages(username, email, password, isEmail) ==> username == Some("")
  {
    var u := UsernameMessages(username);
    var rest := EmailMessages(email, isEmail) + PasswordMessages(password);
    assert SignupMessages(username, email, password, isEmail) == u + rest;
    UsernameTextsNotElsewhere(email, password, isEmail);
    UsernameTextsOwnRule(username);
  }

  lemma UsernameTextsNotElsewhere(email: Option<string>, password: Option<string>, isEmail: string -> bool)
    ensures var rest := EmailMessages(email, isEmail) + PasswordMessages(password);
            UsernameTooShort !in rest && UsernameTooLong !in rest && EmptyMessage("username") !in rest
  {
    MessageTexts();
  }

  lemma UsernameTextsOwnRule(username: Option<string>)
    ensures UsernameTooShort in UsernameMessages(username) ==> username.Some? && 0 < Utf16Length(username.value) < 3
    ensures UsernameTooLong in UsernameMessages(username) ==> username.Some? && Utf16Length(username.value) > 30
    ensures EmptyMessage("username") in UsernameMessages(username) ==> username == Some("")
  {
    MessageTexts();
  }

  /** An e-mail message appears only when the e-mail breaks that rule. */
  lemma EmailMessageOnlyWhenBroken(username: Option<string>, email: Option<string>, password: Option<string>,
                                   isEmail: string -> bool)
    ensures EmailInvalid in SignupMessages(username, email, password, isEmail) ==>
      email.Some? && email.value != "" && !isEmail(email.value)
    ensures EmptyMessage("email") in SignupMessages(username, email, password, isEmail) ==> email == Some("")
  {
    MessageTexts();
    var e := EmailMessages(email, isEmail);
    var others := UsernameMessages(username) + PasswordMessages(password);
    assert EmailInvalid !in others && EmptyMessage("email") !in others;
  }

  /** A password message appears only when the password breaks that rule. */
  lemma PasswordMessageOnlyWhenBroken(username: Option<string>, email: Option<string>, password: Option<string>,
                                      isEmail: string -> bool)
    ensures PasswordTooShort in SignupMessages(username, email, password, isEmail) ==>
      password.Some? && 0 < Utf16Length(password.value) < 8
    ensures PasswordTooWeak in SignupMessages(username, email, password, isEmail) ==>
      password.Some? && password.value != "" && !MatchesPasswordPattern(password.value)
    ensures EmptyMessage("password") in SignupMessages(username, email, password, isEmail) ==> password == Some("")
  {
    MessageTexts();
    var rest := UsernameMessages(username) + EmailMessages(email, isEmail);
    var p := PasswordMessages(password);
    assert SignupMessages(username, email, password, isEmail) == rest + p;
    assert PasswordTooShort !in rest && PasswordTooWeak !in rest && EmptyMessage("password") !in rest;
  }

  /** Examples of the password policy: all three kinds of character are
      needed, and a line break spoils an otherwise strong password. */
  lemma PasswordExamples()
    ensures MatchesPasswordPattern("Passw0rd")
    ensures !MatchesPasswordPattern("password1")
    ensures !MatchesPasswordPattern("Pass\nw0rd")
  {
    assert IsLower("Passw0rd"[1]) && IsUpper("Passw0rd"[0]) && IsDigit("Passw0rd"[5]);
    assert IsLineTerminator("Pass\nw0rd"[4]);
  }

  /** Lengths are counted as JavaScript counts them: seven characters, one
      of them an emoji, make an eight-unit password that passes, and an
      emoji after one letter makes a three-unit username. */
  lemma EmojiCountsTwice(isEmail: string -> bool)
    requires isEmail("ana@example.com")
    ensures |"Pass\U{1F600}1a"| == 7 && Utf16Length("Pass\U{1F600}1a") == 8
    ensures SignupMessages(Some("a\U{1F600}"), Some("ana@example.com"), Some("Pass\U{1F600}1a"), isEmail) == []
  {
    var p := "Pass\U{1F600}1a";
    assert IsLower(p[1]) && IsUpper(p[0]) && IsDigit(p[5]);
    assert Utf16Length(p) == 8;
    assert Utf16Length("a\U{1F600}") == 3;
  }
}

=== FILE: users.dfy ===
/** The account handlers of controllers/users.js over a registry of
    accounts. Signup validates the form, refuses a username or e-mail that
    is already registered, and otherwise registers the account; login sends
    the user back to the page they were trying to reach. */
module Users {
  import opened Common
  import opened Schema
  import Middleware

  /** A registered user as far as signup sees it; the password hash kept
      beside it is not modelled. */
  datatype Account = Account(username: string, email: string)

  /** The fields of the signup form, each possibly absent. */
  datatype SignupForm = SignupForm(username: Option<string>, email: Option<string>, password: Option<string>)

  datatype Outcome = Outcome(flash: Flash, to: Redirect, registry: set<Account>)

  const AlreadyExists := "Username or email already exists"
  const Welcome := "Welcome to WanderWhirl!"
  const WelcomeBack := "Welcome back to WanderWhirl!"

  /** No two accounts share a username or an e-mail address. */
  predicate UniqueAccounts(registry: set<Account>)
  {
    forall a, b :: a in registry && b in registry && (a.username == b.username || a.email == b.email) ==> a == b
  }

  /** `User.findOne({ $or: [{ username }, { email }] })` finds a document. */
  predicate Taken(registry: set<Account>, username: string, email: string)
  {
    exists a :: a in registry && (a.username == username || a.email == email)
  }

  function Validation(f: SignupForm, isEmail: string -> bool): seq<string>
  {
    SignupMessages(f.username, f.email, f.password, isEmail)
  }

  /** `signupUser`. A form that `userSchema` rejects goes back to the
      signup page with every message joined by ", "; a username or e-mail
      already in use goes back with one message; otherwise the account is
      registered and the new user lands on the listings. Only the last
      case changes the registry. */
  function SignupUser(registry: set<Account>, f: SignupForm, isEmail: string -> bool): (o: Outcome)
    ensures !ValidSignup(f.username, f.email, f.password, isEmail) ==>
      && o.registry == registry
      && o.to == ToPath("/signup")
      && o.flash == Error(Join(Validation(f, isEmail), ", "))
    ensures ValidSignup(f.username, f.email, f.password, isEmail) && Taken(registry, f.username.value, f.email.value) ==>
      o == Outcome(Error(AlreadyExists), ToPath("/signup"), registry)
    ensures o.registry != registry <==>
      ValidSignup(f.username, f.email, f.password, isEmail) && !Taken(registry, f.username.value, f.email.value)
    ensures o.registry != registry ==>
      && o.registry == registry + {Account(f.username.value, f.email.value)}
      && |o.registry| == |registry| + 1
      && o.flash == Success(Welcome) && o.to == ToPath("/listings")
  {
    var ms := Validation(f, isEmail);
    if |ms| > 0 then Outcome(Error(Join(ms, ", ")), ToPath("/signup"), registry)
    else
      var a := Account(f.username.value, f.email.value);
      if Taken(registry, a.username, a.email) then Outcome(Error(AlreadyExists), ToPath("/signup"), registry)
      else
        assert a !in registry;
        Outcome(Success(Welcome), ToPath("/listings"), registry + {a})
  }

  /** Signup keeps usernames and e-mail addresses unique. */
  lemma SignupPreservesUniqueness(registry: set<Account>, f: SignupForm, isEmail: string -> bool)
    requires UniqueAccounts(registry)
    ensures UniqueAccounts(SignupUser(registry, f, isEmail).registry)
  {
    var o := SignupUser(registry, f, isEmail);
    if o.registry != registry {
      var n := Account(f.username.value, f.email.value);
      assert forall a :: a in registry ==> a.username != n.username && a.email != n.email;
    }
  }

  /** Signing up a second time with the same form is refused and changes
      nothing. */
  lemma SecondSignupRefused(registry: set<Account>, f: SignupForm, isEmail: string -> bool)
    requires SignupUser(registry, f, isEmail).registry != registry
    ensures var r1 := SignupUser(registry, f, isEmail).registry;
            SignupUser(r1, f, isEmail) == Outcome(Error(AlreadyExists), ToPath("/signup"), r1)
  {
    var r1 := SignupUser(registry, f, isEmail).registry;
    assert Account(f.username.value, f.email.value) in r1;
  }

  /** With several problems the flash message opens with the username's. */
  lemma SignupFlashOpensWithFirstProblem(registry: set<Account>, f: SignupForm, isEmail: string -> bool)
    requires f.username.Some? && 0 < Utf16Length(f.username.value) < 3
    ensures SignupUser(registry, f, isEmail).flash.Error?
    ensures var text := SignupUser(registry, f, isEmail).flash.text;
            |UsernameTooShort| <= |text| && text[..|UsernameTooShort|] == UsernameTooShort
  {
    var ms := Validation(f, isEmail);
    assert ms[0] == UsernameTooShort;
    JoinStartsWithFirst(ms, ", ");
  }

  /** `loginUser`: the URL in `res.locals.redirectUrl` when it is truthy,
      otherwise the listings. */
  function LoginUser(redirectUrl: Option<string>): (r: (Flash, Redirect))
    ensures r.0 == Success(WelcomeBack)
    ensures Truthy(redirectUrl) ==> r.1 == ToPath(redirectUrl.value)
    ensures !Truthy(redirectUrl) ==> r.1 == ToPath("/listings")
  {
    (Success(WelcomeBack), ToPath(if Truthy(redirectUrl) then redirectUrl.value else "/listings"))
  }

  /** The login route runs `savedRedirectUrl` on fresh locals before its
      handler. Its handler names `login`, which the controller does not
      export, so `loginUser` is not reached as written; wired to
      `loginUser`, the route would return the user to the URL saved in the
      session, or to the listings when none was saved. */
  lemma LoginReturnsToSavedUrl(session: Option<string>)
    ensures LoginUser(Middleware.SavedRedirectUrl(session, None)).1 ==
            ToPath(if Truthy(session) then session.value else "/listings")
  {
  }
}
